=== FILE: README.md ===
# SmartPlant RAG core in Dafny

This project models the core of a retrieval-augmented question-answering
assistant for SmartPlant instrumentation documentation. It covers:

- **Loading documents.** `DocumentLoader` turns local PDF and text files into
  document records, and so do crawled pages of the Hexagon documentation site.
  It also writes a metadata summary of them.
- **Chunking and indexing.** `SmartPlantRAG` cuts the documents into
  overlapping, stripped, numbered chunks and hands them to the vector store
  under the keys `chunk_<n>`.
- **Querying.** `SmartPlantRAG` maps the store's reply into retrieved chunks.
  It joins their texts into one context and asks the local language model for
  an answer over it. The answer comes back with one source record (provenance
  and relevance) per chunk and a 500-character preview of the context.

The embedder, the vector store's search, the language model, the file system,
the PDF reader, the HTTP client and the HTML parser are never called. Each
becomes a function parameter, or an input list, standing for what it returns.

Modules, in dependency order:

| file | module | models |
|---|---|---|
| `optional.dfy` | `Optional` | Python's `None` |
| `config.dfy` | `Config` | the constants of `config.py` |
| `documents.dfy` | `Documents` | document and chunk records |
| `strings.dfy` | `Strings` | `str.isspace`, `str.strip`, `len(s.split())`, `str(n)`, suffix lower-casing, `sep.join`, clamped slicing |
| `chunker.dfy` | `Chunker` | `chunk_documents` |
| `index.dfy` | `Index` | `index_documents`, `save_system_state` |
| `retrieval.dfy` | `Retrieval` | `retrieve_relevant_chunks` |
| `generation.dfy` | `Generation` | `generate_response` |
| `query.dfy` | `QueryPipeline` | `query` |
| `crawler.dfy` | `Crawler` | `scrape_hexagon_docs` |
| `loader.dfy` | `Loader` | `load_pdf`, `load_text_file`, `load_all_documents`, `save_documents_metadata` |

The model follows the code where it departs from the intended design:

- **Ranking.** Retrieval does not sort, deduplicate or cut the store's reply.
  Whatever order and length the store returns is passed on.
- **Chunk overlap.** Consecutive windows overlap by `CHUNK_OVERLAP`
  characters (`Chunker.WindowsOverlap`). The stored chunks are stripped
  windows, though, so the overlap of consecutive chunks can be shorter.
- **Zero distance.** A distance of exactly `0.0` takes the `1.0` branch of the
  relevance expression. That gives the same score as `1 - 0`.
- **Null pages.** A chunk without a page number is stored with a null page,
  not the empty string the metadata lookup names as its default
  (`Index.IndexRecords`). The corrected batch is `Index.IndexRecordsIntended`;
  see "Findings".
- **`indexed_at`.** The saved state records the absolute working directory,
  not a time.

## Model

| member | source | states |
|---|---|---|
| Chunker.ChunkDocuments | rag_system.py:89-112 | The nested loop yields the reference chunk list of the batch. Chunk `k` is numbered `k` across all documents, the list has one chunk per surviving window, and every chunk is a stripped text of 51 to 1000 characters. |
| Chunker.AppendDocumentChunks | rag_system.py:100-109 | The inner loop over one document appends exactly that document's surviving windows, in window order. They are numbered on from the current list length. |
| Chunker.KeptStartsExactly | rag_system.py:100-102 | A window start survives if and only if it is a multiple of 800 below the content length and its stripped window has more than 50 characters. Survivors are listed in increasing order. |
| Chunker.StartsFromMembers | rag_system.py:100 | `range(i, n, 800)` holds exactly the numbers in `[i, n)` that are a whole number of strides from `i`. |
| Chunker.WindowStartsMembers | rag_system.py:100 | The window starts of a text are exactly the multiples of 800 below its length. |
| Chunker.KeptFromIncreasing | rag_system.py:100-102 | The surviving starts at or after `i` are strictly increasing and not below `i`. |
| Chunker.NothingKeptFrom | rag_system.py:100-102 | When no window at or after `i` survives, no start is listed. |
| Chunker.DocChunksFromIsReference | rag_system.py:100-109 | The chunks the loop appends from window `i` on are the chunks cut at the surviving starts from `i` on. |
| Chunker.BatchStep | rag_system.py:93-109 | One pass of the outer loop appends exactly the current document's chunks ahead of the rest of the batch. |
| Chunker.BatchLength | rag_system.py:93-109 | A batch has as many chunks as its documents' surviving windows together, whatever the first number. |
| Chunker.BatchIds | rag_system.py:108 | Chunk numbers run contiguously from the first number across document boundaries. |
| Chunker.DocChunksBounds | rag_system.py:101-104 | A document's chunks are already stripped and hold 51 to 1000 characters. |
| Chunker.BatchBounds | rag_system.py:101-104 | Every chunk of a batch is already stripped and holds 51 to 1000 characters. |
| Chunker.DocChunksProvenance | rag_system.py:100-109 | Chunk `k` of a document is its stripped window at its `k`-th surviving start. |
| Chunker.BatchProvenance | rag_system.py:93-109 | Every chunk is the stripped window of some document of the batch, at a surviving multiple of 800. It carries that document's source, type and page, and its position as its number. |
| Chunker.BatchAppend | rag_system.py:93-109 | The chunks of `a + b` are the chunks of `a` followed by those of `b`, numbered on after `a`'s. |
| Chunker.ChunkCountAppend | rag_system.py:93-109 | The chunk count of `a + b` is the sum of the counts of `a` and `b`. |
| Chunker.ChunkCountPermutation | rag_system.py:93-109 | Chunking the same documents in any order yields the same number of chunks. |
| Chunker.ShortDocumentHasNoChunks | rag_system.py:100-102 | A document whose stripped content has at most 50 characters yields no chunk. This includes the empty document. |
| Chunker.WindowsOverlap | rag_system.py:100-101 | Two consecutive full windows share exactly 200 characters. |
| Chunker.TwelveHundredCharacters | rag_system.py:100-109 | A 1200-character document without whitespace yields characters 0-999 as chunk 0 and characters 800-1199 as chunk 1. |
| Strings.Slice | rag_system.py:101 | A Python slice clamps both bounds to the length. It is the plain subsequence when both bounds are in range, runs to the end when only the upper bound is past it, and is empty when the upper bound is not above the lower or the lower bound is at or past the end. |
| Strings.Strip | rag_system.py:102 | Stripping never lengthens a text. What the result is, is stated by Strings.StripSpec. |
| Strings.StripSpec | rag_system.py:102-104 | `strip()` returns the part of the text between its leading and trailing whitespace. That part neither starts nor ends with whitespace. |
| Strings.StripEmptyIffBlank | document_loader.py:35 | `text.strip()` is empty if and only if every character is whitespace. |
| Strings.StripUnique | rag_system.py:102-104 | Stripping blank padding off a text that neither starts nor ends with whitespace gives that text back. |
| Strings.StripIdempotent | rag_system.py:104 | Stripping a stripped text changes nothing. |
| Strings.StripSliceNoLonger | rag_system.py:101-102 | A slice of a text never strips to more characters than the whole text. |
| Strings.WordCountAppend | rag_system.py:194 | `len(s.split())` adds up across a concatenation whose seam is whitespace. |
| Strings.WordCount | rag_system.py:194 | `len(s.split())` is at most the number of characters, since every word holds at least one. |
| Strings.WordCountZeroIffBlank | rag_system.py:194 | `s.split()` is empty if and only if every character of `s` is whitespace. |
| Strings.NatToString | rag_system.py:134 | `str(i)` is a non-empty string of decimal digits with no leading zero unless it is `0`. |
| Strings.ParseNatToString | rag_system.py:134 | The decimal rendering of a number reads back as that number. |
| Strings.JoinPiece | rag_system.py:220 | In `sep.join(xs)`, element `k` sits verbatim at its offset, preceded by the separator unless it is the first. |
| Strings.Join | rag_system.py:220 | `sep.join(xs)` of a non-empty list is as long as its pieces plus one separator between each two neighbours. |
| Strings.LowerAscii | document_loader.py:122-128 | `suffix.lower()` keeps the length, maps each upper-case Latin letter to its lower-case letter, keeps every other character, and leaves no upper-case Latin letter. |
| Index.ChunkKeysDistinct | rag_system.py:134 | Two store keys `chunk_{i}` are equal if and only if their numbers are. |
| Index.KeyNumberOfChunkKey | rag_system.py:134 | Key `chunk_{i}` names position `i`. |
| Index.MetaOfAsWritten | rag_system.py:136-144 | Metadata of one chunk as the code builds it: source, type and number are the chunk's, and the page is the chunk's page number when it has one and a null otherwise, never the empty string. |
| Index.MetaOf | rag_system.py:136-144 | Corrected metadata of one chunk, as the `.get('page', '')` default intends: source, type and number are the chunk's, and the page is the chunk's page number when it has one and the empty string otherwise, never a null. |
| Index.PageDefaultNeverApplies | rag_system.py:97-107 | As written, a chunk without a page is stored with a null page, not the `''` that line 140's default names. |
| Index.IndexRecords | rag_system.py:133-144 | The store batch as written has one key, text and metadata per chunk, in chunk order. Key `i` is `chunk_{i}` and names position `i`, text `i` is chunk `i`'s content, metadata `i` carries chunk `i`'s source, type, number and page number, with a null page for a chunk without one. The embeddings are the embedder's output for the texts. |
| Index.IndexRecordsIntended | rag_system.py:133-144 | The corrected batch has one metadata entry per chunk and none of them has a null page. |
| Index.IntendedBatchDiffersOnlyInBlankPages | rag_system.py:133-144 | The corrected batch and the batch as written share keys, texts and embeddings. Their metadata agree except for the page, and differ exactly for the chunks without a page, which carry a null as written and the empty string corrected. |
| Index.IndexDocuments | rag_system.py:123-154 | Indexing replaces the chunk list with the chunks of the documents, whatever was indexed before. It hands the store the batch as written for those chunks (null pages included): one record per chunk under pairwise distinct keys, with metadata `chunk_id` `i` in position `i`. |
| Index.IndexedKeysAndIds | rag_system.py:134-141 | For freshly numbered chunks, the key and the metadata `chunk_id` of each record name the same position, and no two records share a key. |
| Index.SaveSystemState | rag_system.py:242-249 | The saved count is the number of chunks held and the embedding model is the configured one. The language-model name is recorded if and only if the local model is enabled, and `indexed_at` is the working directory. |
| Index.StateAfterIndexing | rag_system.py:245 | After indexing, the saved count is the number of chunks the documents yield. It does not depend on the order the documents were loaded in. |
| Retrieval.RetrieveRelevantChunks | rag_system.py:168-177 | Each document of the reply becomes one retrieved chunk, in reply order. It has the document's text and metadata, and the distance when the reply has distances. |
| Retrieval.RetrieveRoundTrip | rag_system.py:168-175 | The retrieved chunks give back the reply they were read from, cut to its document count. Each carries a distance if and only if the reply has distances. |
| Generation.GenerateResponse | rag_system.py:179-203 | With the model disabled the reply is fixed. A generated answer is the model's output after the first `len(prompt)` characters, stripped: it is that tail with leading and trailing whitespace removed, and unless it is empty the output is at least the prompt plus the answer long. A raising model call yields the error prefix and the message. |
| Generation.Prompt | rag_system.py:185-190 | The prompt begins with the fixed head, ends with the answer label, and is as long as head, context, question label, question and answer label together. |
| Generation.PromptLayout | rag_system.py:185-190 | The prompt is the fixed head, the context, the question label, the question and the answer label, verbatim and in that order. |
| Generation.PromptWordCount | rag_system.py:185-194 | The prompt's `split()` word count is 6 plus the words of the context and of the question. So `max_length` is 206 plus those words. |
| Generation.HeadWords | rag_system.py:185 | The prompt head holds four words. |
| Generation.QuestionLabelWords | rag_system.py:186-188 | The blank line and label before the question hold one word. |
| Generation.AnswerLabelWords | rag_system.py:188-190 | The blank line and label after the question hold one word. |
| Generation.DisabledIgnoresModel | rag_system.py:181-182 | With the local model disabled the answer is `Local LLM not available`, whatever the model, question and context. |
| Generation.EchoedPromptIsDropped | rag_system.py:194-197 | A model that echoes the prompt and goes on with `rest` yields `rest` stripped. |
| Generation.ShortOutputGivesEmptyAnswer | rag_system.py:197 | An output no longer than the prompt yields the empty answer. |
| Generation.FailureIsReported | rag_system.py:201-203 | A raising model call yields the error prefix followed by the exception's message. |
| QueryPipeline.RelevanceScore | rag_system.py:232 | The score is one minus the distance when there is one, and 1.0 when there is none. |
| QueryPipeline.RelevanceReversesDistance | rag_system.py:232 | Over exact reals, a smaller distance gives a strictly higher score, and equal scores come only from equal distances. With the source's float arithmetic only the non-strict order survives; see "## Left out". |
| QueryPipeline.Preview | rag_system.py:239 | A context of at most 500 characters is reported in full. A longer one becomes its first 500 characters followed by `...`. |
| QueryPipeline.Query | rag_system.py:205-240 | A query reports one source per retrieved chunk and a context of at most 503 characters. |
| QueryPipeline.NoMatchResult | rag_system.py:212-217 | With nothing retrieved, the result is the fixed answer, no sources and an empty context, whatever the model. |
| QueryPipeline.AnsweredResult | rag_system.py:219-240 | With chunks retrieved, the answer is generated over their texts joined by blank lines and the context is that text's preview. Source `i` carries entry `i`'s source, type and page, and its relevance score. |
| QueryPipeline.ContextHoldsEveryChunk | rag_system.py:220 | Each retrieved text sits verbatim in the joined context, after a blank line unless it is the first. |
| Crawler.PopFresh | document_loader.py:74-79 | The head of a fresh frontier was never visited, and what remains stays fresh once it is marked visited. |
| Crawler.SubsequenceMembers | document_loader.py:98-106 | Every URL the link loop appends is one of the page's link targets. |
| Crawler.EnqueueLinks | document_loader.py:98-106 | The link loop leaves the queue it was given in front: it only appends. |
| Crawler.EnqueueLinksSpec | document_loader.py:98-106 | What the link loop appends is `urljoin(url, href)` for some of the page's links, in link order. Every appended URL is on the base host, not visited and not already queued. Each sits where its target first occurs among the page's links, so a repeated link is queued once, at its first occurrence. The frontier stays free of duplicates and visited URLs, and stays on the base host. Every link of the page on the base host ends up visited or queued. |
| Crawler.FirstIndex | document_loader.py:98-106 | The position it returns holds the URL, so the order of appended URLs can be read off the page's links. |
| Crawler.FirstIndexIsFirst | document_loader.py:98-106 | No earlier link of the page has that target: the position is its first occurrence. |
| Crawler.EnqueueOrderStep | document_loader.py:98-106 | One iteration of the link loop keeps what has been appended admitted and in first-occurrence order. A later duplicate of a target never comes before it. |
| Crawler.EnqueueShift | document_loader.py:79-106 | Asking "not visited and not queued" of the visited set and the queue appends the same URLs as asking "not discovered" of all URLs fetched and queued. The visited set is the set of URLs fetched. |
| Crawler.VisitQueuesNewLinks | document_loader.py:74-106 | After an iteration, the frontier is the rest of the queue followed by the new links of the popped page, new with respect to every URL fetched or queued before. |
| Crawler.VisitBreadthFirst | document_loader.py:73-112 | An iteration keeps the crawl first in, first out. The URLs fetched, followed by the frontier, stay the breadth-first discovery order, and the URL it fetches is fetched with the frontier non-empty and the budget not spent. |
| Crawler.FrontierPrefix | document_loader.py:69-106 | The discovery order after fetching some URLs extends the discovery order after fetching any prefix of them. |
| Crawler.FetchedNextInOrder | document_loader.py:73-74 | In a first-in, first-out crawl, each URL fetched is the next one in the discovery order of the URLs fetched before it. |
| Crawler.SameFetchPrefix | document_loader.py:69-74 | Two first-in, first-out crawls from the same base URL fetch the same URLs for as long as both run. |
| Crawler.LongerCrawl | document_loader.py:73 | If one first-in, first-out crawl fetched more than another, the other stopped with URLs queued and budget left. |
| Crawler.CrawlDetermined | document_loader.py:65-114 | The crawl's breadth-first order and its stopping rule fix its outcome. Two outcomes that meet both fetched the same URLs in the same order and left the same frontier. |
| Crawler.LinksQueuedMonotone | document_loader.py:73-106 | A page's links stay visited-or-queued when the visited set grows and the queued URLs stay visited or queued. |
| Crawler.PopKeepsLinksQueued | document_loader.py:74-106 | One crawl step keeps the links of every page fetched earlier visited or queued. |
| Crawler.WebRecordsAreFetchedPages | document_loader.py:89-95 | A web record is the non-blank text of a successfully fetched page. Its source is that page's URL and it has no page number. There are no more records than successful fetches. |
| Crawler.VisitBookkept | document_loader.py:74-79 | The `continue` for an already visited URL is never taken, because the frontier never holds a visited URL. Each iteration fetches the popped URL exactly once, and the visited set stays the set of fetched URLs. |
| Crawler.VisitHosted | document_loader.py:98-106 | An iteration keeps every fetched and queued URL on the base URL's host. |
| Crawler.VisitCounted | document_loader.py:81-112 | An iteration counts a page if and only if its fetch succeeded, and it emits that page's record when the page is not blank. A failed fetch only drops the URL from the frontier. |
| Crawler.VisitCovered | document_loader.py:97-106 | After an iteration, every followed link of every page fetched so far is visited or queued. |
| Crawler.Visit | document_loader.py:74-112 | An iteration marks the popped URL visited, extends the fetched list by at most one URL, keeps the rest of the frontier in front of whatever it appends, and counts at most one page. |
| Crawler.VisitDiscovered | document_loader.py:74-106 | After an iteration, every URL fetched after the first and every URL left in the frontier is a link target of a page fetched before it. |
| Crawler.ScrapeHexagonDocs | document_loader.py:65-114 | The crawl starts at the base URL when the budget is positive and fetches each URL at most once, all on the base URL's host. Successful fetches never exceed the budget, and it stops only with an empty frontier or a spent budget. The records are those of the fetched pages in fetch order. Every link of a fetched page on the host is fetched or left in the frontier, and every URL fetched after the base URL, or left in the frontier, is a link target of a page fetched before it. The crawl is breadth first: the URLs fetched, followed by the frontier, are the base URL and then each fetched page's new links in fetch order. Each fetch happened with the frontier non-empty and the budget not spent. |
| Loader.LoadPdfExactly | document_loader.py:26-46 | A PDF yields exactly its non-blank pages, each a PDF record of the file with its 1-based page number and its text, in page order. |
| Loader.LoadPdfPrefix | document_loader.py:29-46 | When extraction fails after some pages, the records of the pages read are kept, and they begin the records of the whole file. |
| Loader.LoadPdf | document_loader.py:26-46 | A PDF yields at most one record per page, each a PDF record of the file. |
| Loader.LoadTextFile | document_loader.py:48-63 | A text file yields one page-less text record of its content if and only if it was read and is not blank. |
| Loader.DispatchIgnoresCase | document_loader.py:121-128 | Files whose suffixes agree once lower-cased load the same records. |
| Loader.UpperCasePdfIsPdf | document_loader.py:122-126 | A regular file with suffix `.PDF` is loaded as a PDF. |
| Loader.HtmlFileContributesNothing | document_loader.py:122-128 | A local `.html` file passes the extension filter but yields no record. |
| Loader.LoadFile | document_loader.py:121-128 | The records of one directory entry have the entry's path as their source. There are any only when the entry is a regular file whose lower-cased suffix is `.pdf`, `.txt` or `.md`. A regular file with lower-cased suffix `.pdf` gets exactly the PDF loader's records. One with `.txt` or `.md` gets exactly the text loader's records. |
| Loader.LoadLocalDocuments | document_loader.py:121-128 | No local record is a web record and none is blank. |
| Loader.LoadFileRecords | document_loader.py:121-128 | Each record of a directory entry has the entry's path as its source and is not a web record. It has a page number if and only if it is a PDF page, and it is not blank. |
| Loader.LocalRecords | document_loader.py:121-128 | Each local record comes from a directory entry and is not a web record. It has a page number if and only if it is a PDF page, and it is not blank. |
| Loader.CrawlRecordsAreWeb | document_loader.py:130-133 | The records of the crawls are web records without a page number, none of them blank. |
| Loader.LoadAllDocuments | document_loader.py:116-136 | The local records come first, in walk order. Then come exactly the records of one crawl per documentation URL, in the configured order, and each crawl meets every promise of the scraper for its URL and the page budget, breadth-first order included. Every record is non-blank and has a page number if and only if it is a PDF page. |
| Loader.SaveDocumentsMetadata | document_loader.py:138-149 | There is one metadata entry per document, in order, with its source, type, content length and page. |
| Loader.MetadataOfLoadedDocuments | document_loader.py:142-149 | The metadata of a concatenation is the concatenation of the metadata. For loaded documents, each entry records the full content length and has a page if and only if it is a PDF page. |

## Left out

- The embedding model (`create_embeddings`, the query embedding) is a function parameter. Its vectors are opaque.
- The ChromaDB client, the collection set-up and the nearest-neighbour search are not modelled. `collection.add` is modelled as the batch handed to it, and the search as the reply it returns.
- `top_k` is only passed to the store (`n_results`), so no bound or order on the reply is stated.
- Model loading (`_initialize_models`) and sampling are not modelled. The language model is a function from prompt and `max_length` to generated text or a raised message.
- Files are not read and JSON is not written. The saved state and the metadata file are modelled as the records written. `indexed_at` is the working directory, given as a parameter.
- Logging and `time.sleep(1)` between fetches are not modelled.
- HTTP requests, `raise_for_status`, BeautifulSoup and PyPDF2 are not modelled. A fetch is a function returning either failure or the page text and its link targets. A PDF is the list of page texts extracted before any failure.
- `urljoin` and `urlparse(...).netloc` are function parameters.
- The walk order of `rglob`, `is_file` and `Path.suffix` come in as the list of directory entries.
- Crawler.ScrapeHexagonDocs: an exception raised inside the link loop, after a page's record was appended, is not modelled. The source keeps that record, keeps the links queued so far, and does not count the page. The model treats every fetch as wholly failed or wholly successful.
- Generation.GenerateResponse: a failure of the pipeline call and a failure to index its output are one outcome, `Raised(message)`. The model does not state what `str(e)` renders.
- Strings.Strip: its own contract is only the length bound. The characterisation, the text between the leading and trailing whitespace, is the separate lemma Strings.StripSpec, because the function is used throughout the model.
- QueryPipeline.RelevanceScore / QueryPipeline.RelevanceReversesDistance: distances and scores are exact reals. In the source, `1 - d` is an IEEE double subtraction that rounds. Two distinct distances close together, for example `1e-17` and `2e-17`, both score exactly `1.0`. So the strict order and "equal scores only from equal distances" hold for the model only. For the source, only "a distance no larger gives a score no smaller" holds.
- Loader.LoadFile: suffix lower-casing covers ASCII letters only. The supported extensions are ASCII.
- Strings.IsSpace is the fixed set of code points for which Python's `str.isspace` holds. There is no other Unicode handling, and text is a sequence of code points.
- Retrieval.RetrieveRelevantChunks requires the reply's lists to be at least as long as its document list. The source indexes them and would raise otherwise.
- QueryPipeline.Query requires the same well-formed reply. Its `.get('page', '')` for the source record reads the stored page, which is always present.
- `web_interface.py`, `main.py` and `setup.py` are not part of this model. They are presentation, command-line and set-up shells around the core.

## Findings

| source | as written | input that shows it | evidently intended | confidence | as-written member | corrected member |
|---|---|---|---|---|---|---|
| rag_system.py:140 | `'page': chunk.get('page', '')`. Every chunk dict has a `'page'` key, set at line 107 from `doc.get('page', None)`, so the default never applies and text and web chunks are stored with `page: None`. | Indexing any `.txt` file or crawled page: its chunk has `page` `None`. | A page-less chunk is stored with the empty-string page, a value a metadata store accepts. | medium — not executed | Index.PageDefaultNeverApplies (over Index.MetaOfAsWritten) | Index.IntendedBatchDiffersOnlyInBlankPages (over Index.MetaOf and Index.IndexRecordsIntended) |

=== FILE: chunker.dfy ===
/** The chunker of `SmartPlantRAG.chunk_documents`: a fixed-width window slides
    over each document's content with a fixed stride; each window is stripped and
    kept only when what remains is longer than `MIN_CHUNK_LENGTH`; kept windows
    are numbered by a counter that runs across the whole batch.

    `KeptStarts` and `Batch` are the reference description (which windows survive,
    and in what order); `ChunkDocuments` is the nested loop of the source, proved
    to compute `Batch(docs, 0)`. */
module Chunker {
  import opened Optional
  import opened Strings
  import opened Config
  import opened Documents

  // ---------------------------------------------------------------------------
  // Windows
  // ---------------------------------------------------------------------------

  /** `range(i, n, CHUNK_STRIDE)`. */
  function StartsFrom(i: nat, n: nat): seq<nat>
    decreases n - i
  {
    if i >= n then [] else [i] + StartsFrom(i + CHUNK_STRIDE, n)
  }

  /** The window starts of a text of length `n`: `range(0, n, CHUNK_STRIDE)`. */
  function WindowStarts(n: nat): seq<nat> {
    StartsFrom(0, n)
  }

  /** `range(i, n, CHUNK_STRIDE)` holds exactly the numbers below `n` reached from
      `i` in whole strides. */
  lemma {:induction false} StartsFromMembers(i: nat, n: nat, j: int)
    ensures j in StartsFrom(i, n) <==> i <= j < n && (j - i) % CHUNK_STRIDE == 0
    decreases n - i
  {
    if i < n {
      StartsFromMembers(i + CHUNK_STRIDE, n, j);
      StrideMod(j - (i + CHUNK_STRIDE));
    }
  }

  /** Adding one stride keeps the remainder. */
  lemma StrideMod(x: int)
    ensures (x + CHUNK_STRIDE) % CHUNK_STRIDE == x % CHUNK_STRIDE
  {
  }

  /** A window start is a multiple of the stride below the text length. */
  lemma WindowStartsMembers(n: nat, i: int)
    ensures i in WindowStarts(n) <==> 0 <= i < n && i % CHUNK_STRIDE == 0
  {
    StartsFromMembers(0, n, i);
  }

  /** `content[i:i + CHUNK_SIZE]`. */
  function Window(content: string, i: nat): (w: string)
    ensures |w| <= CHUNK_SIZE
  {
    Slice(content, i, i + CHUNK_SIZE)
  }

  /** The window at `i` survives: `len(chunk_text.strip()) > 50`. */
  predicate Keep(content: string, i: nat) {
    |Strip(Window(content, i))| > MIN_CHUNK_LENGTH
  }

  /** The chunk cut from `doc` at window start `i`, numbered `id`. */
  function ChunkAt(doc: Document, i: nat, id: nat): Chunk {
    Chunk(Strip(Window(doc.content, i)), doc.source, doc.docType, doc.page, id)
  }

  // ---------------------------------------------------------------------------
  // Reference description: surviving windows
  // ---------------------------------------------------------------------------

  /** The surviving window starts at or after `i`, in window order. */
  function KeptFrom(content: string, i: nat): seq<nat>
    decreases |content| - i, 1
  {
    if i >= |content| then [] else KeptFromStart(content, i)
  }

  /** One step of `KeptFrom` at a start inside the content. `KeptFrom` and this
      function are split so that the verifier unfolds the recursion one level
      at a time. */
  function KeptFromStart(content: string, i: nat): seq<nat>
    requires i < |content|
    decreases |content| - i, 0
  {
    if Keep(content, i) then [i] + KeptFrom(content, i + CHUNK_STRIDE)
    else KeptFrom(content, i + CHUNK_STRIDE)
  }

  /** `KeptFrom` one window at a time. */
  lemma KeptFromStep(content: string, i: nat)
    requires i < |content|
    ensures KeptFrom(content, i)
         == if Keep(content, i) then [i] + KeptFrom(content, i + CHUNK_STRIDE) else KeptFrom(content, i + CHUNK_STRIDE)
  {
  }

  /** The window starts of `content` that survive stripping, in window order. */
  function KeptStarts(content: string): seq<nat> {
    KeptFrom(content, 0)
  }

  lemma {:induction false} KeptFromMembers(content: string, i: nat, j: nat)
    ensures j in KeptFrom(content, i) <==> j in StartsFrom(i, |content|) && Keep(content, j)
    decreases |content| - i
  {
    if i < |content| {
      KeptFromMembers(content, i + CHUNK_STRIDE, j);
    }
  }

  lemma {:induction false} KeptFromIncreasing(content: string, i: nat)
    ensures forall a :: 0 <= a < |KeptFrom(content, i)| ==> i <= KeptFrom(content, i)[a]
    ensures forall a, b :: 0 <= a < b < |KeptFrom(content, i)| ==> KeptFrom(content, i)[a] < KeptFrom(content, i)[b]
    decreases |content| - i
  {
    if i < |content| {
      KeptFromStep(content, i);
      KeptFromIncreasing(content, i + CHUNK_STRIDE);
    }
  }

  /** No window at or after `i` survives, so none is listed. */
  lemma {:induction false} NothingKeptFrom(content: string, i: nat)
    requires forall j: nat :: i <= j < |content| ==> !Keep(content, j)
    ensures KeptFrom(content, i) == []
    decreases |content| - i
  {
    if i < |content| {
      NothingKeptFrom(content, i + CHUNK_STRIDE);
    }
  }

  /** Which windows survive: exactly the window starts (multiples of the stride
      below the content length) whose stripped window is longer than
      `MIN_CHUNK_LENGTH`, listed in increasing order. */
  lemma KeptStartsExactly(content: string, j: nat)
    ensures j in KeptStarts(content) <==> j < |content| && j % CHUNK_STRIDE == 0 && Keep(content, j)
    ensures forall a, b :: 0 <= a < b < |KeptStarts(content)| ==> KeptStarts(content)[a] < KeptStarts(content)[b]
  {
    KeptFromMembers(content, 0, j);
    StartsFromMembers(0, |content|, j);
    KeptFromIncreasing(content, 0);
  }

  /** The chunks cut from `doc` at the window starts `ks`, numbered from `id`. */
  function ChunksAt(doc: Document, ks: seq<nat>, id: nat): (r: seq<Chunk>)
    ensures |r| == |ks|
  {
    if |ks| == 0 then [] else [ChunkAt(doc, ks[0], id)] + ChunksAt(doc, ks[1..], id + 1)
  }

  lemma {:induction false} ChunksAtIndex(doc: Document, ks: seq<nat>, id: nat)
    ensures forall k :: 0 <= k < |ks| ==> ChunksAt(doc, ks, id)[k] == ChunkAt(doc, ks[k], id + k)
  {
    if |ks| > 0 {
      ChunksAtIndex(doc, ks[1..], id + 1);
    }
  }

  /** The chunks of one document, numbered from `firstId` in window order. */
  function DocChunks(doc: Document, firstId: nat): seq<Chunk> {
    ChunksAt(doc, KeptStarts(doc.content), firstId)
  }

  /** The chunks of a batch: each document's chunks in document order, the
      numbering continuing from one document to the next. */
  function Batch(docs: seq<Document>, firstId: nat): seq<Chunk>
    decreases |docs|, 1
  {
    if |docs| == 0 then [] else BatchNonEmpty(docs, firstId)
  }

  /** One step of `Batch` on a non-empty list of documents. `Batch` and this
      function are split so that the verifier unfolds the recursion one level
      at a time. */
  function BatchNonEmpty(docs: seq<Document>, firstId: nat): seq<Chunk>
    requires |docs| > 0
    decreases |docs|, 0
  {
    DocChunks(docs[0], firstId) + Batch(docs[1..], firstId + |KeptStarts(docs[0].content)|)
  }

  /** Number of chunks a batch yields: the sum over its documents. */
  function ChunkCount(docs: seq<Document>): nat
    decreases |docs|, 1
  {
    if |docs| == 0 then 0 else ChunkCountNonEmpty(docs)
  }

  /** One step of `ChunkCount` on a non-empty list of documents. `ChunkCount` and this
      function are split so that the verifier unfolds the recursion one level
      at a time. */
  function ChunkCountNonEmpty(docs: seq<Document>): nat
    requires |docs| > 0
    decreases |docs|, 0
  {
    |KeptStarts(docs[0].content)| + ChunkCount(docs[1..])
  }

  // ---------------------------------------------------------------------------
  // The loop of the source
  // ---------------------------------------------------------------------------

  /** The chunks the inner loop appends for windows at or after `i`. */
  function DocChunksFrom(doc: Document, i: nat, id: nat): seq<Chunk>
    decreases |doc.content| - i, 1
  {
    if i >= |doc.content| then [] else DocChunksFromStart(doc, i, id)
  }

  /** One step of `DocChunksFrom` at a start inside the content. `DocChunksFrom` and this
      function are split so that the verifier unfolds the recursion one level
      at a time. */
  function DocChunksFromStart(doc: Document, i: nat, id: nat): seq<Chunk>
    requires i < |doc.content|
    decreases |doc.content| - i, 0
  {
    if Keep(doc.content, i) then [ChunkAt(doc, i, id)] + DocChunksFrom(doc, i + CHUNK_STRIDE, id + 1)
    else DocChunksFrom(doc, i + CHUNK_STRIDE, id)
  }

  /** `DocChunksFrom` one window at a time. */
  lemma DocChunksFromStep(doc: Document, i: nat, id: nat)
    requires i < |doc.content|
    ensures DocChunksFrom(doc, i, id)
         == if Keep(doc.content, i) then [ChunkAt(doc, i, id)] + DocChunksFrom(doc, i + CHUNK_STRIDE, id + 1)
            else DocChunksFrom(doc, i + CHUNK_STRIDE, id)
  {
  }

  lemma {:induction false} DocChunksFromIsReference(doc: Document, i: nat, id: nat)
    ensures DocChunksFrom(doc, i, id) == ChunksAt(doc, KeptFrom(doc.content, i), id)
    decreases |doc.content| - i
  {
    if i < |doc.content| {
      KeptFromStep(doc.content, i);
      if Keep(doc.content, i) {
        DocChunksFromIsReference(doc, i + CHUNK_STRIDE, id + 1);
        assert KeptFrom(doc.content, i)[1..] == KeptFrom(doc.content, i + CHUNK_STRIDE);
      } else {
        DocChunksFromIsReference(doc, i + CHUNK_STRIDE, id);
      }
    }
  }

  /** The inner loop of `chunk_documents` for one document: strip each window and
      append it, numbered by the count of chunks so far, when long enough. */
  method AppendDocumentChunks(doc: Document, chunks: seq<Chunk>) returns (result: seq<Chunk>)
    ensures result == chunks + DocChunksFrom(doc, 0, |chunks|)
  {
    result := chunks;
    var content := doc.content;
    var i := 0;
    while i < |content|
      invariant chunks + DocChunksFrom(doc, 0, |chunks|) == result + DocChunksFrom(doc, i, |result|)
    {
      ghost var prev := result;
      var chunkText := Window(content, i);
      DocChunksFromStep(doc, i, |result|);
      if |Strip(chunkText)| > MIN_CHUNK_LENGTH {
        result := result + [Chunk(Strip(chunkText), doc.source, doc.docType, doc.page, |result|)];
        Regroup(prev, [ChunkAt(doc, i, |prev|)], DocChunksFrom(doc, i + CHUNK_STRIDE, |result|));
      }
      i := i + CHUNK_STRIDE;
    }
    assert DocChunksFrom(doc, i, |result|) == [];
  }

  /** `chunk_documents`: for each document, for each window start, strip the
      window and append it when it is long enough, numbered by the number of
      chunks appended so far. */
  method ChunkDocuments(docs: seq<Document>) returns (chunks: seq<Chunk>)
    ensures chunks == Batch(docs, 0)
    ensures |chunks| == ChunkCount(docs)
    ensures forall k :: 0 <= k < |chunks| ==> chunks[k].chunkId == k
    ensures forall k :: 0 <= k < |chunks| ==> MIN_CHUNK_LENGTH < |chunks[k].content| <= CHUNK_SIZE
  {
    chunks := [];
    var d := 0;
    while d < |docs|
      invariant d <= |docs|
      invariant chunks + Batch(docs[d..], |chunks|) == Batch(docs, 0)
    {
      ghost var before := chunks;
      chunks := AppendDocumentChunks(docs[d], chunks);
      BatchStep(docs, d, before);
      d := d + 1;
    }
    assert docs[d..] == [];
    BatchIds(docs, 0);
    BatchLength(docs, 0);
    BatchBounds(docs, 0);
  }

  /** One step of the outer loop: the batch from document `d` on is that
      document's chunks followed by the batch from `d + 1` on. */
  lemma BatchStep(docs: seq<Document>, d: nat, before: seq<Chunk>)
    requires d < |docs|
    ensures var after := before + DocChunksFrom(docs[d], 0, |before|);
            before + Batch(docs[d..], |before|) == after + Batch(docs[d + 1..], |after|)
  {
    var own := DocChunksFrom(docs[d], 0, |before|);
    BatchFrom(docs, d, |before|);
    DocChunksFromIsReference(docs[d], 0, |before|);
    Regroup(before, own, Batch(docs[d + 1..], |before| + |own|));
  }

  /** The batch from document `d` on is document `d`'s chunks followed by the
      batch from `d + 1` on. */
  lemma BatchFrom(docs: seq<Document>, d: nat, firstId: nat)
    requires d < |docs|
    ensures Batch(docs[d..], firstId) == DocChunks(docs[d], firstId) + Batch(docs[d + 1..], firstId + |DocChunks(docs[d], firstId)|)
  {
    assert docs[d..][0] == docs[d];
    assert docs[d..][1..] == docs[d + 1..];
  }

  /** `Batch` one document at a time. */
  lemma BatchCons(docs: seq<Document>, firstId: nat)
    requires |docs| > 0
    ensures Batch(docs, firstId) == DocChunks(docs[0], firstId) + Batch(docs[1..], firstId + |DocChunks(docs[0], firstId)|)
  {
  }

  lemma Regroup(a: seq<Chunk>, b: seq<Chunk>, c: seq<Chunk>)
    ensures a + (b + c) == (a + b) + c
  {
  }

  // ---------------------------------------------------------------------------
  // Properties of a batch
  // ---------------------------------------------------------------------------

  /** A batch has `ChunkCount(docs)` chunks, whatever the first number. */
  lemma {:induction false} BatchLength(docs: seq<Document>, firstId: nat)
    ensures |Batch(docs, firstId)| == ChunkCount(docs)
  {
    if |docs| > 0 {
      BatchLength(docs[1..], firstId + |KeptStarts(docs[0].content)|);
    }
  }

  /** Chunk numbers are contiguous from `firstId` across the whole batch: they do
      not restart at document boundaries. */
  lemma {:induction false} BatchIds(docs: seq<Document>, firstId: nat)
    ensures forall k :: 0 <= k < |Batch(docs, firstId)| ==> Batch(docs, firstId)[k].chunkId == firstId + k
  {
    if |docs| > 0 {
      var own := DocChunks(docs[0], firstId);
      var next := firstId + |own|;
      var rest := Batch(docs[1..], next);
      BatchIds(docs[1..], next);
      ChunksAtIndex(docs[0], KeptStarts(docs[0].content), firstId);
      var all: seq<Chunk> := own + rest;
      assert Batch(docs, firstId) == all;
      forall k | 0 <= k < |all|
        ensures all[k].chunkId == firstId + k
      {
        if k >= |own| {
          assert all[k] == rest[k - |own|];
        }
      }
    }
  }

  /** The chunks of one document are stripped texts of more than
      `MIN_CHUNK_LENGTH` and at most `CHUNK_SIZE` characters. */
  lemma DocChunksBounds(doc: Document, firstId: nat)
    ensures forall k :: 0 <= k < |DocChunks(doc, firstId)| ==>
              && MIN_CHUNK_LENGTH < |DocChunks(doc, firstId)[k].content| <= CHUNK_SIZE
              && Strip(DocChunks(doc, firstId)[k].content) == DocChunks(doc, firstId)[k].content
  {
    var ks := KeptStarts(doc.content);
    ChunksAtIndex(doc, ks, firstId);
    forall k | 0 <= k < |ks|
      ensures MIN_CHUNK_LENGTH < |Strip(Window(doc.content, ks[k]))|
      ensures Strip(Strip(Window(doc.content, ks[k]))) == Strip(Window(doc.content, ks[k]))
    {
      KeptFromMembers(doc.content, 0, ks[k]);
      StripIdempotent(Window(doc.content, ks[k]));
    }
  }

  /** Every chunk of a batch is a stripped text of more than `MIN_CHUNK_LENGTH`
      and at most `CHUNK_SIZE` characters. */
  lemma {:induction false} BatchBounds(docs: seq<Document>, firstId: nat)
    ensures forall k :: 0 <= k < |Batch(docs, firstId)| ==>
              && MIN_CHUNK_LENGTH < |Batch(docs, firstId)[k].content| <= CHUNK_SIZE
              && Strip(Batch(docs, firstId)[k].content) == Batch(docs, firstId)[k].content
  {
    if |docs| > 0 {
      var own := DocChunks(docs[0], firstId);
      var rest := Batch(docs[1..], firstId + |own|);
      BatchBounds(docs[1..], firstId + |own|);
      DocChunksBounds(docs[0], firstId);
      var all: seq<Chunk> := own + rest;
      assert Batch(docs, firstId) == all;
      forall k | 0 <= k < |all| && k >= |own|
        ensures all[k] == rest[k - |own|]
      {
      }
    }
  }

  /** Chunk `k` of one document is its stripped window at a surviving start. */
  lemma DocChunksProvenance(doc: Document, firstId: nat, k: nat)
    requires k < |DocChunks(doc, firstId)|
    ensures KeptStarts(doc.content)[k] < |doc.content|
    ensures KeptStarts(doc.content)[k] % CHUNK_STRIDE == 0
    ensures Keep(doc.content, KeptStarts(doc.content)[k])
    ensures DocChunks(doc, firstId)[k] == ChunkAt(doc, KeptStarts(doc.content)[k], firstId + k)
  {
    ChunksAtIndex(doc, KeptStarts(doc.content), firstId);
    KeptStartsExactly(doc.content, KeptStarts(doc.content)[k]);
  }

  /** Provenance: chunk `k` of the batch is the stripped window of some document
      of the batch at one of its window starts, carries that document's `source`,
      `type` and `page`, and is numbered `firstId + k`. */
  lemma {:induction false} BatchProvenance(docs: seq<Document>, firstId: nat, k: nat)
    requires k < |Batch(docs, firstId)|
    ensures exists d: nat, i: nat :: && d < |docs|
                                     && i < |docs[d].content| && i % CHUNK_STRIDE == 0
                                     && Keep(docs[d].content, i)
                                     && Batch(docs, firstId)[k] == ChunkAt(docs[d], i, firstId + k)
  {
    var own := DocChunks(docs[0], firstId);
    var rest := Batch(docs[1..], firstId + |own|);
    var all: seq<Chunk> := own + rest;
    assert Batch(docs, firstId) == all;
    if k < |own| {
      DocChunksProvenance(docs[0], firstId, k);
      var i := KeptStarts(docs[0].content)[k];
      assert all[k] == ChunkAt(docs[0], i, firstId + k);
    } else {
      BatchProvenance(docs[1..], firstId + |own|, k - |own|);
      var d: nat, i: nat :| && d < |docs[1..]|
                            && i < |docs[1..][d].content| && i % CHUNK_STRIDE == 0
                            && Keep(docs[1..][d].content, i)
                            && rest[k - |own|] == ChunkAt(docs[1..][d], i, firstId + |own| + (k - |own|));
      assert docs[1..][d] == docs[d + 1];
      assert all[k] == rest[k - |own|];
      assert all[k] == ChunkAt(docs[d + 1], i, firstId + k);
    }
  }

  /** Document order: the chunks of `a + b` are those of `a` followed by those of
      `b`, whose numbering continues after `a`'s. */
  lemma {:induction false} BatchAppend(a: seq<Document>, b: seq<Document>, firstId: nat)
    ensures Batch(a + b, firstId) == Batch(a, firstId) + Batch(b, firstId + ChunkCount(a))
  {
    if |a| == 0 {
      assert a + b == b;
    } else {
      var own := DocChunks(a[0], firstId);
      var next := firstId + |own|;
      var p := Batch(a[1..], next);
      var q := Batch(b, next + ChunkCount(a[1..]));
      ChunkCountCons(a, firstId);
      assert firstId + ChunkCount(a) == next + ChunkCount(a[1..]);
      BatchCons(a, firstId);
      assert Batch(a, firstId) == own + p;
      TailOfAppend(a, b);
      BatchCons(a + b, firstId);
      assert Batch(a + b, firstId) == own + Batch(a[1..] + b, next);
      BatchAppend(a[1..], b, next);
      assert Batch(a[1..] + b, next) == p + q;
      Regroup(own, p, q);
    }
  }

  lemma TailOfAppend(a: seq<Document>, b: seq<Document>)
    requires |a| > 0
    ensures (a + b)[0] == a[0] && (a + b)[1..] == a[1..] + b
  {
  }

  /** The count of a batch is its first document's count plus the rest's. */
  lemma ChunkCountCons(docs: seq<Document>, firstId: nat)
    requires |docs| > 0
    ensures ChunkCount(docs) == |DocChunks(docs[0], firstId)| + ChunkCount(docs[1..])
  {
  }

  lemma {:induction false} ChunkCountAppend(a: seq<Document>, b: seq<Document>)
    ensures ChunkCount(a + b) == ChunkCount(a) + ChunkCount(b)
  {
    if |a| == 0 {
      assert a + b == b;
    } else {
      TailOfAppend(a, b);
      ChunkCountAppend(a[1..], b);
    }
  }

  /** Rebuilding from the same documents in any order yields the same number of
      chunks (only the numbering differs). */
  lemma {:induction false} ChunkCountPermutation(a: seq<Document>, b: seq<Document>)
    requires multiset(a) == multiset(b)
    ensures ChunkCount(a) == ChunkCount(b)
    decreases |a|
  {
    if |a| > 0 {
      assert a[0] in multiset(b);
      var j :| 0 <= j < |b| && b[j] == a[0];
      var rest := b[..j] + b[j + 1..];
      RemoveMatching(a, b, j);
      ChunkCountPermutation(a[1..], rest);
      ChunkCountRemove(b, j);
    }
  }

  /** Dropping the first document of `a` and a copy of it from `b` keeps the
      two collections equal. */
  lemma RemoveMatching(a: seq<Document>, b: seq<Document>, j: nat)
    requires multiset(a) == multiset(b) && |a| > 0 && j < |b| && b[j] == a[0]
    ensures multiset(a[1..]) == multiset(b[..j] + b[j + 1..])
  {
    assert b == b[..j] + [b[j]] + b[j + 1..];
    assert a == [a[0]] + a[1..];
    assert multiset(b) == multiset(b[..j]) + multiset{b[j]} + multiset(b[j + 1..]);
    assert multiset(a) == multiset{a[0]} + multiset(a[1..]);
    calc {
      multiset(a[1..]);
      multiset(a) - multiset{a[0]};
      multiset(b) - multiset{b[j]};
      multiset(b[..j]) + multiset(b[j + 1..]);
      multiset(b[..j] + b[j + 1..]);
    }
  }

  /** The chunk count of a batch is the count of any one of its documents plus
      the count of the others. */
  lemma ChunkCountRemove(b: seq<Document>, j: nat)
    requires j < |b|
    ensures ChunkCount(b) == |KeptStarts(b[j].content)| + ChunkCount(b[..j] + b[j + 1..])
  {
    var t := [b[j]] + b[j + 1..];
    assert b == b[..j] + t;
    ChunkCountAppend(b[..j], t);
    ChunkCountAppend(b[..j], b[j + 1..]);
    assert t[0] == b[j] && t[1..] == b[j + 1..];
  }

  /** A document whose stripped content is at most `MIN_CHUNK_LENGTH` characters
      (empty content included) yields no chunk: no window strips to more than the
      whole content does. */
  lemma ShortDocumentHasNoChunks(doc: Document, firstId: nat)
    requires |Strip(doc.content)| <= MIN_CHUNK_LENGTH
    ensures DocChunks(doc, firstId) == []
  {
    var c := doc.content;
    forall j: nat | j < |c|
      ensures !Keep(c, j)
    {
      var e := if j + CHUNK_SIZE <= |c| then j + CHUNK_SIZE else |c|;
      assert Window(c, j) == c[j..e];
      StripSliceNoLonger(c, j, e);
    }
    NothingKeptFrom(c, 0);
  }

  /** Two consecutive full windows share exactly `CHUNK_OVERLAP` characters: the
      tail of the window at `i` is the head of the window at `i + CHUNK_STRIDE`. */
  lemma WindowsOverlap(content: string, i: nat)
    requires i + CHUNK_STRIDE + CHUNK_OVERLAP <= |content|
    ensures Window(content, i)[CHUNK_STRIDE..] == Window(content, i + CHUNK_STRIDE)[..CHUNK_OVERLAP]
  {
  }

  /** A 1200-character text without whitespace keeps exactly the windows at 0
      and 800: the first full and the second the last 400 characters. */
  lemma TwelveHundredStarts(c: string)
    requires |c| == 1200 && Solid(c)
    ensures KeptStarts(c) == [0, 800]
    ensures Window(c, 0) == c[..1000] && Window(c, 800) == c[800..]
  {
    StripSolid(c[..1000]);
    StripSolid(c[800..]);
    assert Window(c, 0) == c[..1000];
    assert Window(c, 800) == c[800..];
    assert Keep(c, 0) && Keep(c, 800);
    assert KeptFrom(c, 1600) == [];
    KeptFromStep(c, 800);
    KeptFromStep(c, 0);
  }

  /** A 1200-character document without whitespace yields two chunks: characters
      [0, 1000) numbered 0 and characters [800, 1200) numbered 1. */
  lemma TwelveHundredCharacters(doc: Document)
    requires |doc.content| == 1200 && Solid(doc.content)
    ensures Batch([doc], 0) == [
      Chunk(doc.content[..1000], doc.source, doc.docType, doc.page, 0),
      Chunk(doc.content[800..], doc.source, doc.docType, doc.page, 1)]
  {
    var c := doc.content;
    TwelveHundredStarts(c);
    StripSolid(c[..1000]);
    StripSolid(c[800..]);
    ChunksAtIndex(doc, [0, 800], 0);
    assert [doc][1..] == [];
    assert Batch([doc], 0) == DocChunks(doc, 0) + Batch([], 2);
  }
}

=== FILE: config.dfy ===
/** Configuration constants of the pipeline (config.py and the literals the
    pipeline hard-codes next to them). */
module Config {

  /** Width of the chunking window, in characters. */
  const CHUNK_SIZE: nat := 1000

  /** Characters shared by consecutive windows of one document. */
  const CHUNK_OVERLAP: nat := 200

  /** Distance between consecutive window starts. The Python never checks that
      the overlap is smaller than the window; here the subset type `Pos` makes the
      verifier check it once, for the configured values. */
  const CHUNK_STRIDE: Pos := CHUNK_SIZE - CHUNK_OVERLAP

  type Pos = n: int | n > 0 witness 1

  /** A stripped window must be strictly longer than this to become a chunk. */
  const MIN_CHUNK_LENGTH: nat := 50

  const EMBEDDING_MODEL: string := "sentence-transformers/all-MiniLM-L6-v2"
  const LLM_MODEL: string := "microsoft/DialoGPT-medium"

  /** File suffixes, lower-cased, that the local loader looks at. */
  const SUPPORTED_EXTENSIONS: seq<string> := [".pdf", ".txt", ".md", ".html"]

  /** Start pages of the web crawl. */
  const HEXAGON_URLS: seq<string> := ["https://docs.hexagonppm.com/"]

  /** Default budget of successfully fetched pages per crawl. */
  const MAX_PAGES: nat := 50
}

=== FILE: crawler.dfy ===
/** The web crawl of `DocumentLoader.scrape_hexagon_docs`: a breadth-first walk
    from a base URL over links that stay on the base URL's host, with a visited
    set, a first-in first-out frontier that never holds a URL twice, and a budget
    on successfully fetched pages.

    The network and the HTML parser are one function parameter, `fetch`, from a
    URL to either a failure (any exception raised while requesting, checking the
    status or parsing) or the page's text and the `href` of each of its links,
    in document order. `urljoin` and the host part of `urlparse` are function
    parameters too. */
module Crawler {
  import opened Optional
  import opened Strings
  import opened Documents

  /** What requesting and parsing one URL produces. */
  datatype FetchResult = FetchFailed | Fetched(text: string, hrefs: seq<string>)

  predicate NoDuplicates<T(==)>(s: seq<T>) {
    forall i, j :: 0 <= i < j < |s| ==> s[i] != s[j]
  }

  /** A queue that holds no URL twice and none already visited. */
  predicate Fresh(queue: seq<string>, visited: set<string>) {
    && NoDuplicates(queue)
    && forall k :: 0 <= k < |queue| ==> queue[k] !in visited
  }

  /** Every URL of `urls` is on the host `baseHost`. */
  predicate OnHost(urls: seq<string>, baseHost: string, netloc: string -> string) {
    forall k :: 0 <= k < |urls| ==> netloc(urls[k]) == baseHost
  }

  /** Popping the head of a fresh queue and marking it visited leaves a fresh
      queue: the head was not visited before. */
  lemma PopFresh(queue: seq<string>, visited: set<string>)
    requires Fresh(queue, visited) && |queue| > 0
    ensures queue[0] !in visited
    ensures Fresh(queue[1..], visited + {queue[0]})
  {
    forall k | 0 <= k < |queue| - 1
      ensures queue[1..][k] !in visited + {queue[0]}
    {
      assert queue[1..][k] == queue[k + 1];
    }
  }

  /** The record a fetched page contributes: one web record when its text is
      not blank. */
  function WebRecord(url: string, page: FetchResult): seq<Document> {
    if page.Fetched? && |Strip(page.text)| > 0 then [Document(page.text, url, Web, None)] else []
  }

  /** The records of the pages fetched, in fetch order. */
  function WebRecords(urls: seq<string>, fetch: string -> FetchResult): seq<Document>
    decreases |urls|, 1
  {
    if |urls| == 0 then [] else WebRecordsNonEmpty(urls, fetch)
  }

  /** One step of `WebRecords`: the records of all pages but the last, then
      the last page's. `WebRecords` and this function are split so that the
      verifier unfolds the recursion one level at a time. */
  function WebRecordsNonEmpty(urls: seq<string>, fetch: string -> FetchResult): seq<Document>
    requires |urls| > 0
    decreases |urls|, 0
  {
    WebRecords(urls[..|urls| - 1], fetch) + WebRecord(urls[|urls| - 1], fetch(urls[|urls| - 1]))
  }

  /** A web record is the non-blank text of a page that was fetched
      successfully, with that page's URL as its source and no page number; and
      there are no more records than successful fetches. */
  lemma {:induction false} WebRecordsAreFetchedPages(urls: seq<string>, fetch: string -> FetchResult)
    ensures |WebRecords(urls, fetch)| <= SuccessCount(urls, fetch)
    ensures forall d :: d in WebRecords(urls, fetch) ==>
              && d.docType == Web && d.page == None && !Blank(d.content)
              && d.source in urls
              && fetch(d.source).Fetched? && fetch(d.source).text == d.content
  {
    if |urls| > 0 {
      var init := urls[..|urls| - 1];
      var last := urls[|urls| - 1];
      WebRecordsAreFetchedPages(init, fetch);
      if fetch(last).Fetched? && |Strip(fetch(last).text)| > 0 {
        StripEmptyIffBlank(fetch(last).text);
      }
      forall u | u in init ensures u in urls {
        var k :| 0 <= k < |init| && init[k] == u;
        assert urls[k] == u;
      }
    }
  }

  /** The number of URLs among `urls` whose fetch succeeded. */
  function SuccessCount(urls: seq<string>, fetch: string -> FetchResult): nat
    decreases |urls|, 1
  {
    if |urls| == 0 then 0 else SuccessCountNonEmpty(urls, fetch)
  }

  /** One step of `SuccessCount`: the count of all URLs but the last, plus one
      when the last fetch succeeded. `SuccessCount` and this function are split
      so that the verifier unfolds the recursion one level at a time. */
  function SuccessCountNonEmpty(urls: seq<string>, fetch: string -> FetchResult): nat
    requires |urls| > 0
    decreases |urls|, 0
  {
    SuccessCount(urls[..|urls| - 1], fetch) + (if fetch(urls[|urls| - 1]).Fetched? then 1 else 0)
  }

  /** The link `href` of the page at `url` leads to a page the crawl follows:
      its joined URL is on the base URL's host. */
  predicate Followed(url: string, href: string, baseHost: string, netloc: string -> string, urljoin: (string, string) -> string) {
    netloc(urljoin(url, href)) == baseHost
  }

  /** Every followed link of the page at `url` is visited or queued. */
  predicate LinksQueued(url: string, hrefs: seq<string>, baseHost: string, netloc: string -> string,
                        urljoin: (string, string) -> string, visited: set<string>, queue: seq<string>) {
    forall j :: 0 <= j < |hrefs| && Followed(url, hrefs[j], baseHost, netloc, urljoin) ==>
      urljoin(url, hrefs[j]) in visited || urljoin(url, hrefs[j]) in queue
  }

  /** Links stay covered when the visited set grows and every queued URL is
      either visited or still queued. */
  lemma LinksQueuedMonotone(url: string, hrefs: seq<string>, baseHost: string, netloc: string -> string,
                            urljoin: (string, string) -> string,
                            v1: set<string>, q1: seq<string>, v2: set<string>, q2: seq<string>)
    requires LinksQueued(url, hrefs, baseHost, netloc, urljoin, v1, q1)
    requires v1 <= v2
    requires forall k :: 0 <= k < |q1| ==> q1[k] in v2 || q1[k] in q2
    ensures LinksQueued(url, hrefs, baseHost, netloc, urljoin, v2, q2)
  {
    forall j | 0 <= j < |hrefs| && Followed(url, hrefs[j], baseHost, netloc, urljoin)
      ensures urljoin(url, hrefs[j]) in v2 || urljoin(url, hrefs[j]) in q2
    {
      var x := urljoin(url, hrefs[j]);
      if x !in v1 {
        var k :| 0 <= k < |q1| && q1[k] == x;
      }
    }
  }

  /** One step of the crawl keeps the links of the pages fetched earlier
      covered: the popped URL becomes visited and the rest of the queue stays
      queued, ahead of anything appended. */
  lemma PopKeepsLinksQueued(before: seq<string>, fetch: string -> FetchResult, baseHost: string,
                            netloc: string -> string, urljoin: (string, string) -> string,
                            seen: set<string>, queued: seq<string>, visited: set<string>, queue: seq<string>)
    requires forall k :: 0 <= k < |before| && fetch(before[k]).Fetched? ==>
               LinksQueued(before[k], fetch(before[k]).hrefs, baseHost, netloc, urljoin, seen, queued)
    requires |queued| > 0 && seen + {queued[0]} <= visited
    requires |queued| - 1 <= |queue| && queue[..|queued| - 1] == queued[1..]
    ensures forall k :: 0 <= k < |before| && fetch(before[k]).Fetched? ==>
              LinksQueued(before[k], fetch(before[k]).hrefs, baseHost, netloc, urljoin, visited, queue)
  {
    forall k | 0 < k < |queued|
      ensures queued[k] in queue
    {
      assert queued[k] == queue[..|queued| - 1][k - 1];
    }
    forall k | 0 <= k < |before| && fetch(before[k]).Fetched?
      ensures LinksQueued(before[k], fetch(before[k]).hrefs, baseHost, netloc, urljoin, visited, queue)
    {
      LinksQueuedMonotone(before[k], fetch(before[k]).hrefs, baseHost, netloc, urljoin, seen, queued, visited, queue);
    }
  }

  /** The targets of a page's links, `urljoin(url, href)` for each `href`, in
      link order. */
  function Targets(url: string, hrefs: seq<string>, urljoin: (string, string) -> string): (ts: seq<string>)
    ensures |ts| == |hrefs|
    ensures forall j :: 0 <= j < |hrefs| ==> ts[j] == urljoin(url, hrefs[j])
  {
    seq(|hrefs|, j requires 0 <= j < |hrefs| => urljoin(url, hrefs[j]))
  }

  /** `a` is `b` with some elements left out, the rest kept in order. */
  predicate Subsequence(a: seq<string>, b: seq<string>)
    decreases |b|
  {
    if |a| == 0 then true
    else if |b| == 0 then false
    else (a[0] == b[0] && Subsequence(a[1..], b[1..])) || Subsequence(a, b[1..])
  }

  /** Every element of a subsequence is an element of the sequence. */
  lemma {:induction false} SubsequenceMembers(a: seq<string>, b: seq<string>, x: string)
    requires Subsequence(a, b) && x in a
    ensures x in b
    decreases |b|
  {
    if a[0] == b[0] && Subsequence(a[1..], b[1..]) {
      if x != a[0] {
        SubsequenceMembers(a[1..], b[1..], x);
      }
    } else {
      SubsequenceMembers(a, b[1..], x);
    }
  }

  /** One iteration of the link loop keeps what it appended a subsequence of
      the page's link targets: it appends the first target or nothing. */
  lemma AppendedTargets(queue: seq<string>, next: seq<string>, r: seq<string>, full: string,
                        ts: seq<string>, rest: seq<string>)
    requires next == queue || next == queue + [full]
    requires |next| <= |r| && r[..|next|] == next
    requires |ts| > 0 && ts[0] == full && ts[1..] == rest
    requires Subsequence(r[|next|..], rest)
    ensures Subsequence(r[|queue|..], ts)
  {
    var a := r[|queue|..];
    if next != queue {
      assert a[0] == r[|queue|] == next[|queue|] == full;
      assert a[1..] == r[|next|..];
    } else {
      assert a == r[|next|..];
    }
  }

  /** Where `x` first occurs in `ts`. */
  function FirstIndex(ts: seq<string>, x: string): (p: nat)
    requires x in ts
    ensures p < |ts| && ts[p] == x
    decreases |ts|
  {
    if ts[0] == x then 0
    else
      assert x in ts[1..] by {
        var k :| 0 <= k < |ts| && ts[k] == x;
        assert ts[1..][k - 1] == x;
      }
      1 + FirstIndex(ts[1..], x)
  }

  /** No earlier position of `ts` holds `x`: `FirstIndex` is the first
      occurrence. */
  lemma {:induction false} FirstIndexIsFirst(ts: seq<string>, x: string)
    requires x in ts
    ensures forall j :: 0 <= j < FirstIndex(ts, x) ==> ts[j] != x
    decreases |ts|
  {
    if ts[0] != x {
      FirstIndexTail(ts, x);
      FirstIndexIsFirst(ts[1..], x);
      forall j | 1 <= j < FirstIndex(ts, x)
        ensures ts[j] != x
      {
        assert ts[j] == ts[1..][j - 1];
      }
    }
  }

  /** Past a different first element, the first occurrence of `x` is one
      further on than in the rest. */
  lemma FirstIndexTail(ts: seq<string>, x: string)
    requires |ts| > 0 && x in ts[1..] && x != ts[0]
    ensures x in ts && FirstIndex(ts, x) == 1 + FirstIndex(ts[1..], x)
  {
    var k :| 0 <= k < |ts[1..]| && ts[1..][k] == x;
    assert ts[k + 1] == x;
  }

  /** The URLs `appended` come in the order in which their targets first occur
      among the page's link targets `ts`: a repeated link is placed where it
      first appears. */
  predicate InLinkOrder(appended: seq<string>, ts: seq<string>) {
    AllLinked(appended, ts) && FirstIndexAscending(appended, ts)
  }

  /** Every URL of `appended` is one of the targets `ts`. */
  predicate AllLinked(appended: seq<string>, ts: seq<string>) {
    forall m :: 0 <= m < |appended| ==> appended[m] in ts
  }

  /** The first occurrences in `ts` of the URLs of `appended` strictly increase. */
  predicate FirstIndexAscending(appended: seq<string>, ts: seq<string>)
    requires AllLinked(appended, ts)
  {
    forall m, n :: 0 <= m < n < |appended| ==> FirstIndex(ts, appended[m]) < FirstIndex(ts, appended[n])
  }

  /** Every URL of `appended` is on the base host, not visited and not in
      `queue`: the link loop only appends URLs it would follow. */
  predicate Admitted(appended: seq<string>, queue: seq<string>, visited: set<string>,
                     baseHost: string, netloc: string -> string) {
    forall m :: 0 <= m < |appended| ==>
      netloc(appended[m]) == baseHost && appended[m] !in visited && appended[m] !in queue
  }

  /** Targets that differ from the first one keep their first-occurrence order
      when that first one is put back in front. */
  lemma InLinkOrderShift(b: seq<string>, ts: seq<string>)
    requires |ts| > 0 && InLinkOrder(b, ts[1..])
    requires forall m :: 0 <= m < |b| ==> b[m] != ts[0]
    ensures InLinkOrder(b, ts)
    ensures forall m :: 0 <= m < |b| ==> FirstIndex(ts, b[m]) > 0
  {
    forall m | 0 <= m < |b|
      ensures b[m] in ts && FirstIndex(ts, b[m]) == 1 + FirstIndex(ts[1..], b[m])
    {
      FirstIndexTail(ts, b[m]);
    }
  }

  /** The first target, put before targets that first occur later, keeps the
      order. */
  lemma InLinkOrderCons(b: seq<string>, ts: seq<string>)
    requires |ts| > 0 && InLinkOrder(b, ts)
    requires forall m :: 0 <= m < |b| ==> FirstIndex(ts, b[m]) > 0
    ensures InLinkOrder([ts[0]] + b, ts)
  {
    var a := [ts[0]] + b;
    var first := FirstIndex(ts, ts[0]);
    assert first == 0;
    forall m | 0 <= m < |a|
      ensures a[m] in ts
    {
      if m > 0 {
        assert a[m] == b[m - 1];
      }
    }
    forall m, n | 0 <= m < n < |a|
      ensures FirstIndex(ts, a[m]) < FirstIndex(ts, a[n])
    {
      var later := b[n - 1];
      assert a[n] == later;
      if m == 0 {
        assert a[m] == ts[0];
        assert FirstIndex(ts, later) > 0;
      } else {
        var earlier := b[m - 1];
        assert a[m] == earlier;
        assert FirstIndex(ts, earlier) < FirstIndex(ts, later);
      }
    }
  }

  /** Whatever the later iterations of the link loop append differs from the
      first target: either that target was appended already, or it was not to
      be followed, and then neither is anything equal to it. */
  lemma LaterDiffersFromFirst(queue: seq<string>, next: seq<string>, b: seq<string>, full: string,
                              visited: set<string>, baseHost: string, netloc: string -> string)
    requires var follow := netloc(full) == baseHost && full !in visited && full !in queue;
      next == if follow then queue + [full] else queue
    requires Admitted(b, next, visited, baseHost, netloc)
    ensures forall m :: 0 <= m < |b| ==> b[m] != full
  {
    if next != queue {
      assert full in next;
    }
  }

  /** One iteration of the link loop keeps what it appended admitted. */
  lemma AdmittedStep(queue: seq<string>, next: seq<string>, r: seq<string>, full: string,
                     visited: set<string>, baseHost: string, netloc: string -> string)
    requires var follow := netloc(full) == baseHost && full !in visited && full !in queue;
      next == if follow then queue + [full] else queue
    requires |next| <= |r| && r[..|next|] == next
    requires Admitted(r[|next|..], next, visited, baseHost, netloc)
    ensures Admitted(r[|queue|..], queue, visited, baseHost, netloc)
  {
    var a := r[|queue|..];
    var d := |next| - |queue|;
    forall m | 0 <= m < |a|
      ensures netloc(a[m]) == baseHost && a[m] !in visited && a[m] !in queue
    {
      if m < d {
        assert a[m] == next[|queue|] == full;
      } else {
        assert a[m] == r[|next|..][m - d];
      }
    }
  }

  /** One iteration of the link loop keeps what it appended admitted and in
      first-occurrence order: the first target, when followed, comes before
      everything the later iterations append, none of which equals it. */
  lemma EnqueueOrderStep(queue: seq<string>, next: seq<string>, r: seq<string>, full: string,
                         ts: seq<string>, visited: set<string>, baseHost: string, netloc: string -> string)
    requires var follow := netloc(full) == baseHost && full !in visited && full !in queue;
      next == if follow then queue + [full] else queue
    requires |next| <= |r| && r[..|next|] == next
    requires |ts| > 0 && ts[0] == full
    requires Admitted(r[|next|..], next, visited, baseHost, netloc)
    requires InLinkOrder(r[|next|..], ts[1..])
    ensures Admitted(r[|queue|..], queue, visited, baseHost, netloc)
    ensures InLinkOrder(r[|queue|..], ts)
  {
    AdmittedStep(queue, next, r, full, visited, baseHost, netloc);
    var b := r[|next|..];
    LaterDiffersFromFirst(queue, next, b, full, visited, baseHost, netloc);
    InLinkOrderShift(b, ts);
    if next != queue {
      assert r[|queue|..] == [full] + b by {
        assert r[|queue|] == next[|queue|];
      }
      InLinkOrderCons(b, ts);
    } else {
      assert r[|queue|..] == b;
    }
  }

  /** One step of `EnqueueLinks`: what the call on the remaining links
      promises about `next` carries over to `queue`, with the first link
      appended to `next` when it was followed. */
  lemma EnqueueStep(queue: seq<string>, url: string, hrefs: seq<string>, baseHost: string,
                    netloc: string -> string, urljoin: (string, string) -> string, visited: set<string>,
                    next: seq<string>, r: seq<string>)
    requires |hrefs| > 0
    requires var full := urljoin(url, hrefs[0]);
      next == if netloc(full) == baseHost && full !in visited && full !in queue then queue + [full] else queue
    requires |next| <= |r| && r[..|next|] == next
    requires Subsequence(r[|next|..], Targets(url, hrefs[1..], urljoin))
    requires Fresh(next, visited) ==> Fresh(r, visited)
    requires OnHost(next, baseHost, netloc) ==> OnHost(r, baseHost, netloc)
    requires LinksQueued(url, hrefs[1..], baseHost, netloc, urljoin, visited, r)
    ensures |queue| <= |r| && r[..|queue|] == queue
    ensures Subsequence(r[|queue|..], Targets(url, hrefs, urljoin))
    ensures Fresh(queue, visited) ==> Fresh(r, visited)
    ensures OnHost(queue, baseHost, netloc) ==> OnHost(r, baseHost, netloc)
    ensures LinksQueued(url, hrefs, baseHost, netloc, urljoin, visited, r)
  {
    var full := urljoin(url, hrefs[0]);
    assert r[..|queue|] == next[..|queue|] == queue;
    assert netloc(full) == baseHost ==> full in visited || full in r by {
      if netloc(full) == baseHost && full !in visited {
        assert full in next;
        assert full in r[..|next|];
      }
    }
    assert forall j :: 1 <= j < |hrefs| ==> hrefs[j] == hrefs[1..][j - 1];
    AppendedTargets(queue, next, r, full, Targets(url, hrefs, urljoin), Targets(url, hrefs[1..], urljoin));
  }

  /** The link loop for one page: append each joined link on the base host that
      is neither visited nor already queued, in link order. What it appends is
      thereby fixed: exactly the followed targets not visited and not queued
      before (`Admitted` and `LinksQueued`), each once, in the order of their
      first link (`InLinkOrder`). */
  function EnqueueLinks(queue: seq<string>, url: string, hrefs: seq<string>, baseHost: string,
                        netloc: string -> string, urljoin: (string, string) -> string, visited: set<string>): (r: seq<string>)
    ensures |queue| <= |r| && r[..|queue|] == queue
    decreases |hrefs|, 1
  {
    if |hrefs| == 0 then queue else EnqueueLinksNonEmpty(queue, url, hrefs, baseHost, netloc, urljoin, visited)
  }

  /** `EnqueueLinks` and this function are split so that the verifier unfolds
      the recursion one level at a time. */
  function EnqueueLinksNonEmpty(queue: seq<string>, url: string, hrefs: seq<string>, baseHost: string,
                                netloc: string -> string, urljoin: (string, string) -> string,
                                visited: set<string>): (r: seq<string>)
    requires |hrefs| > 0
    ensures |queue| <= |r| && r[..|queue|] == queue
    decreases |hrefs|, 0
  {
    var full := urljoin(url, hrefs[0]);
    var next := if netloc(full) == baseHost && full !in visited && full !in queue then queue + [full] else queue;
    EnqueueLinks(next, url, hrefs[1..], baseHost, netloc, urljoin, visited)
  }

  /** What the link loop appends: only link targets, in link order; on a fresh
      frontier it stays fresh, on the base host it stays there; every followed
      target ends up visited or queued; and what is appended is admitted and in
      first-occurrence order. */
  lemma {:induction false} EnqueueLinksSpec(queue: seq<string>, url: string, hrefs: seq<string>, baseHost: string,
                                            netloc: string -> string, urljoin: (string, string) -> string,
                                            visited: set<string>)
    ensures var r := EnqueueLinks(queue, url, hrefs, baseHost, netloc, urljoin, visited);
      && Subsequence(r[|queue|..], Targets(url, hrefs, urljoin))
      && (Fresh(queue, visited) ==> Fresh(r, visited))
      && (OnHost(queue, baseHost, netloc) ==> OnHost(r, baseHost, netloc))
      && LinksQueued(url, hrefs, baseHost, netloc, urljoin, visited, r)
      && Admitted(r[|queue|..], queue, visited, baseHost, netloc)
      && InLinkOrder(r[|queue|..], Targets(url, hrefs, urljoin))
    decreases |hrefs|
  {
    var r := EnqueueLinks(queue, url, hrefs, baseHost, netloc, urljoin, visited);
    if |hrefs| == 0 {
      assert r[|queue|..] == [];
    } else {
      var full := urljoin(url, hrefs[0]);
      var next := if netloc(full) == baseHost && full !in visited && full !in queue then queue + [full] else queue;
      EnqueueLinksSpec(next, url, hrefs[1..], baseHost, netloc, urljoin, visited);
      assert r == EnqueueLinksNonEmpty(queue, url, hrefs, baseHost, netloc, urljoin, visited);
      EnqueueStep(queue, url, hrefs, baseHost, netloc, urljoin, visited, next, r);
      assert Targets(url, hrefs, urljoin)[1..] == Targets(url, hrefs[1..], urljoin);
      EnqueueOrderStep(queue, next, r, full, Targets(url, hrefs, urljoin), visited, baseHost, netloc);
    }
  }

  // ---------------------------------------------------------------------------
  // The crawl loop
  // ---------------------------------------------------------------------------

  /** The state of the crawl between two iterations of its loop: the records so
      far, the URLs fetched (in order), the visited set, the frontier and the
      number of pages fetched successfully. */
  datatype Crawl = Crawl(documents: seq<Document>, fetched: seq<string>, visited: set<string>,
                         queue: seq<string>, pageCount: nat)

  /** One iteration of the loop: pop the oldest queued URL and skip it when
      already visited; otherwise mark it visited and fetch it. On success emit
      its record when its text is not blank, queue its new links on the base
      host and count the page; on failure count nothing. */
  function Visit(c: Crawl, baseHost: string, fetch: string -> FetchResult,
                 netloc: string -> string, urljoin: (string, string) -> string): (r: Crawl)
    requires |c.queue| > 0
    ensures r.visited == c.visited + {c.queue[0]}
    ensures |c.fetched| <= |r.fetched| <= |c.fetched| + 1 && r.fetched[..|c.fetched|] == c.fetched
    ensures |c.queue| - 1 <= |r.queue| && r.queue[..|c.queue| - 1] == c.queue[1..]
    ensures c.pageCount <= r.pageCount <= c.pageCount + 1
  {
    var url := c.queue[0];
    var rest := c.queue[1..];
    if url in c.visited then c.(queue := rest)
    else
      var visited := c.visited + {url};
      var fetched := c.fetched + [url];
      match fetch(url)
      case FetchFailed => Crawl(c.documents, fetched, visited, rest, c.pageCount)
      case Fetched(_, hrefs) =>
        Crawl(c.documents + WebRecord(url, fetch(url)), fetched, visited,
              EnqueueLinks(rest, url, hrefs, baseHost, netloc, urljoin, visited), c.pageCount + 1)
  }

  /** The frontier holds no URL twice and none visited, and the visited set is
      the set of URLs fetched, each fetched once. */
  predicate Bookkept(c: Crawl) {
    && Fresh(c.queue, c.visited)
    && NoDuplicates(c.fetched)
    && c.visited == set u | u in c.fetched
  }

  /** Visiting from a bookkept state never takes the skip: the popped URL is
      fetched, and the state stays bookkept. */
  lemma VisitBookkept(c: Crawl, baseHost: string, fetch: string -> FetchResult,
                      netloc: string -> string, urljoin: (string, string) -> string)
    requires |c.queue| > 0 && Bookkept(c)
    ensures c.queue[0] !in c.visited
    ensures Visit(c, baseHost, fetch, netloc, urljoin).fetched == c.fetched + [c.queue[0]]
    ensures Visit(c, baseHost, fetch, netloc, urljoin).visited == c.visited + {c.queue[0]}
    ensures Bookkept(Visit(c, baseHost, fetch, netloc, urljoin))
  {
    if c.queue[0] !in c.visited && fetch(c.queue[0]).Fetched? {
      EnqueueLinksSpec(c.queue[1..], c.queue[0], fetch(c.queue[0]).hrefs, baseHost, netloc, urljoin, c.visited + {c.queue[0]});
    }
    var url := c.queue[0];
    PopFresh(c.queue, c.visited);
    var fetched := c.fetched + [url];
    assert (set u | u in fetched) == c.visited + {url};
  }

  /** Every URL fetched and queued is on the base host. */
  predicate Hosted(c: Crawl, baseHost: string, netloc: string -> string) {
    OnHost(c.fetched, baseHost, netloc) && OnHost(c.queue, baseHost, netloc)
  }

  lemma VisitHosted(c: Crawl, baseHost: string, fetch: string -> FetchResult,
                    netloc: string -> string, urljoin: (string, string) -> string)
    requires |c.queue| > 0 && Bookkept(c) && Hosted(c, baseHost, netloc)
    ensures Hosted(Visit(c, baseHost, fetch, netloc, urljoin), baseHost, netloc)
  {
    VisitBookkept(c, baseHost, fetch, netloc, urljoin);
    if c.queue[0] !in c.visited && fetch(c.queue[0]).Fetched? {
      EnqueueLinksSpec(c.queue[1..], c.queue[0], fetch(c.queue[0]).hrefs, baseHost, netloc, urljoin, c.visited + {c.queue[0]});
    }
    assert OnHost(c.queue[1..], baseHost, netloc) by {
      forall k | 0 <= k < |c.queue| - 1 ensures netloc(c.queue[1..][k]) == baseHost {
        assert c.queue[1..][k] == c.queue[k + 1];
      }
    }
  }

  /** The page count and the records are those of the URLs fetched. */
  predicate Counted(c: Crawl, fetch: string -> FetchResult) {
    c.pageCount == SuccessCount(c.fetched, fetch) && c.documents == WebRecords(c.fetched, fetch)
  }

  lemma VisitCounted(c: Crawl, baseHost: string, fetch: string -> FetchResult,
                     netloc: string -> string, urljoin: (string, string) -> string)
    requires |c.queue| > 0 && Bookkept(c) && Counted(c, fetch)
    ensures Counted(Visit(c, baseHost, fetch, netloc, urljoin), fetch)
    ensures var next := Visit(c, baseHost, fetch, netloc, urljoin);
            if fetch(c.queue[0]).Fetched? then next.pageCount == c.pageCount + 1
            else next.pageCount == c.pageCount && next.queue == c.queue[1..]
  {
    VisitBookkept(c, baseHost, fetch, netloc, urljoin);
    var fetched := c.fetched + [c.queue[0]];
    assert fetched[..|fetched| - 1] == c.fetched;
  }

  /** Every followed link of every page fetched is visited or queued. */
  predicate Covered(c: Crawl, baseHost: string, fetch: string -> FetchResult,
                    netloc: string -> string, urljoin: (string, string) -> string) {
    forall k :: 0 <= k < |c.fetched| && fetch(c.fetched[k]).Fetched? ==>
      LinksQueued(c.fetched[k], fetch(c.fetched[k]).hrefs, baseHost, netloc, urljoin, c.visited, c.queue)
  }

  lemma VisitCovered(c: Crawl, baseHost: string, fetch: string -> FetchResult,
                     netloc: string -> string, urljoin: (string, string) -> string)
    requires |c.queue| > 0 && Bookkept(c) && Covered(c, baseHost, fetch, netloc, urljoin)
    ensures Covered(Visit(c, baseHost, fetch, netloc, urljoin), baseHost, fetch, netloc, urljoin)
  {
    VisitBookkept(c, baseHost, fetch, netloc, urljoin);
    if c.queue[0] !in c.visited && fetch(c.queue[0]).Fetched? {
      EnqueueLinksSpec(c.queue[1..], c.queue[0], fetch(c.queue[0]).hrefs, baseHost, netloc, urljoin, c.visited + {c.queue[0]});
    }
    var next := Visit(c, baseHost, fetch, netloc, urljoin);
    var url := c.queue[0];
    PopKeepsLinksQueued(c.fetched, fetch, baseHost, netloc, urljoin, c.visited, c.queue, next.visited, next.queue);
    assert next.fetched[|c.fetched|] == url;
    forall k | 0 <= k < |next.fetched| && fetch(next.fetched[k]).Fetched?
      ensures LinksQueued(next.fetched[k], fetch(next.fetched[k]).hrefs, baseHost, netloc, urljoin, next.visited, next.queue)
    {
      if k < |c.fetched| {
        assert next.fetched[k] == c.fetched[k];
      }
    }
  }

  /** The crawl starts at the base URL when it may fetch anything, fetches each
      URL at most once, and fetches only URLs on the base URL's host. */
  predicate VisitsOnce(fetched: seq<string>, baseUrl: string, maxPages: int, netloc: string -> string) {
    && NoDuplicates(fetched)
    && (maxPages > 0 ==> |fetched| > 0 && fetched[0] == baseUrl)
    && OnHost(fetched, netloc(baseUrl), netloc)
  }

  /** The successful fetches stay within the budget, and the crawl stops early
      only when the frontier runs dry. */
  predicate WithinBudget(fetched: seq<string>, remaining: seq<string>, maxPages: int, fetch: string -> FetchResult) {
    && SuccessCount(fetched, fetch) <= (if maxPages > 0 then maxPages else 0)
    && (|remaining| == 0 || SuccessCount(fetched, fetch) >= maxPages)
  }

  /** The frontier left over holds no URL twice and none fetched, and every
      followed link of every page fetched is fetched or left in it. */
  predicate FrontierCovers(fetched: seq<string>, remaining: seq<string>, baseHost: string, fetch: string -> FetchResult,
                           netloc: string -> string, urljoin: (string, string) -> string) {
    && Fresh(remaining, set u | u in fetched)
    && forall k :: 0 <= k < |fetched| && fetch(fetched[k]).Fetched? ==>
         LinksQueued(fetched[k], fetch(fetched[k]).hrefs, baseHost, netloc, urljoin, (set u | u in fetched), remaining)
  }

  /** `u` is the target of a link on one of the successfully fetched `pages`. */
  predicate LinkedFrom(u: string, pages: seq<string>, fetch: string -> FetchResult, urljoin: (string, string) -> string) {
    exists k :: 0 <= k < |pages| && fetch(pages[k]).Fetched? && u in Targets(pages[k], fetch(pages[k]).hrefs, urljoin)
  }

  /** Only links are followed: every URL fetched after the first is a link
      target on a page fetched before it, and every URL left in the frontier is
      a link target on a fetched page (or the base URL, before anything was
      fetched). */
  predicate Discovered(fetched: seq<string>, remaining: seq<string>, baseUrl: string,
                       fetch: string -> FetchResult, urljoin: (string, string) -> string) {
    && (forall i :: 0 < i < |fetched| ==> LinkedFrom(fetched[i], fetched[..i], fetch, urljoin))
    && (forall k :: 0 <= k < |remaining| ==>
          LinkedFrom(remaining[k], fetched, fetch, urljoin) || (|fetched| == 0 && remaining[k] == baseUrl))
  }

  /** A link target on some pages is a link target on those pages and more. */
  lemma LinkedFromMore(u: string, pages: seq<string>, more: seq<string>,
                       fetch: string -> FetchResult, urljoin: (string, string) -> string)
    requires LinkedFrom(u, pages, fetch, urljoin)
    ensures LinkedFrom(u, pages + more, fetch, urljoin)
  {
    var k :| 0 <= k < |pages| && fetch(pages[k]).Fetched? && u in Targets(pages[k], fetch(pages[k]).hrefs, urljoin);
    assert (pages + more)[k] == pages[k];
  }

  /** An iteration queues and fetches only link targets of fetched pages. */
  lemma VisitDiscovered(c: Crawl, baseUrl: string, baseHost: string, fetch: string -> FetchResult,
                        netloc: string -> string, urljoin: (string, string) -> string)
    requires |c.queue| > 0 && Bookkept(c)
    requires |c.fetched| == 0 ==> c.queue == [baseUrl]
    requires Discovered(c.fetched, c.queue, baseUrl, fetch, urljoin)
    ensures var next := Visit(c, baseHost, fetch, netloc, urljoin);
            Discovered(next.fetched, next.queue, baseUrl, fetch, urljoin)
  {
    VisitBookkept(c, baseHost, fetch, netloc, urljoin);
    var next := Visit(c, baseHost, fetch, netloc, urljoin);
    var url := c.queue[0];
    var n := |c.fetched|;
    assert next.fetched == c.fetched + [url];
    forall i | 0 < i < |next.fetched|
      ensures LinkedFrom(next.fetched[i], next.fetched[..i], fetch, urljoin)
    {
      if i < n {
        assert next.fetched[..i] == c.fetched[..i];
      } else {
        assert next.fetched[..i] == c.fetched;
      }
    }
    var rest := c.queue[1..];
    forall k | 0 <= k < |next.queue|
      ensures LinkedFrom(next.queue[k], next.fetched, fetch, urljoin)
    {
      var x := next.queue[k];
      if k < |rest| {
        assert x == next.queue[..|c.queue| - 1][k] == c.queue[k + 1];
        LinkedFromMore(x, c.fetched, [url], fetch, urljoin);
      } else {
        var hrefs := fetch(url).hrefs;
        assert next.queue == EnqueueLinks(rest, url, hrefs, baseHost, netloc, urljoin, next.visited);
        EnqueueLinksSpec(rest, url, hrefs, baseHost, netloc, urljoin, next.visited);
        assert x in next.queue[|rest|..];
        SubsequenceMembers(next.queue[|rest|..], Targets(url, hrefs, urljoin), x);
        assert next.fetched[n] == url;
      }
    }
  }

  // ---------------------------------------------------------------------------
  // Breadth-first order
  // ---------------------------------------------------------------------------

  /** The URLs a fetched page adds to a crawl that has discovered `known` (the
      URLs fetched and those still queued, in order): the targets of its links on
      the base host not discovered yet, each once, in link order. A failed fetch
      adds nothing. */
  function NewLinks(known: seq<string>, url: string, baseHost: string, fetch: string -> FetchResult,
                    netloc: string -> string, urljoin: (string, string) -> string): seq<string>
  {
    match fetch(url)
    case FetchFailed => []
    case Fetched(_, hrefs) => EnqueueLinks(known, url, hrefs, baseHost, netloc, urljoin, {})[|known|..]
  }

  /** The breadth-first discovery order after fetching `fetched`: the base URL,
      then, for each URL fetched in turn, the new links of its page. */
  function Frontier(fetched: seq<string>, baseUrl: string, fetch: string -> FetchResult,
                    netloc: string -> string, urljoin: (string, string) -> string): seq<string>
    decreases |fetched|, 1
  {
    if |fetched| == 0 then [baseUrl] else FrontierNonEmpty(fetched, baseUrl, fetch, netloc, urljoin)
  }

  /** `Frontier` and this function are split so that the verifier unfolds the
      recursion one level at a time. */
  function FrontierNonEmpty(fetched: seq<string>, baseUrl: string, fetch: string -> FetchResult,
                            netloc: string -> string, urljoin: (string, string) -> string): seq<string>
    requires |fetched| > 0
    decreases |fetched|, 0
  {
    var known := Frontier(fetched[..|fetched| - 1], baseUrl, fetch, netloc, urljoin);
    known + NewLinks(known, fetched[|fetched| - 1], netloc(baseUrl), fetch, netloc, urljoin)
  }

  /** The crawl is first in, first out: the URLs fetched followed by the frontier
      left over are the breadth-first discovery order, and each URL was fetched
      while the frontier was not empty and the budget not spent. */
  predicate BreadthFirst(fetched: seq<string>, remaining: seq<string>, baseUrl: string, maxPages: int,
                         fetch: string -> FetchResult, netloc: string -> string, urljoin: (string, string) -> string) {
    && fetched + remaining == Frontier(fetched, baseUrl, fetch, netloc, urljoin)
    && forall k :: 0 <= k < |fetched| ==>
         k < |Frontier(fetched[..k], baseUrl, fetch, netloc, urljoin)| && SuccessCount(fetched[..k], fetch) < maxPages
  }

  /** The suffix of a sequence that extends `p` is the suffix of `p` followed
      by the extension. */
  lemma SuffixOfExtension(r: seq<string>, p: seq<string>, i: nat)
    requires i <= |p| <= |r| && r[..|p|] == p
    ensures r[i..] == p[i..] + r[|p|..]
  {
    assert r == p + r[|p|..];
  }

  /** A suffix of what the link loop returns, unfolded by one link: `next` is
      the queue after the first link. */
  lemma EnqueueUnfold(queue: seq<string>, url: string, hrefs: seq<string>, baseHost: string,
                      netloc: string -> string, urljoin: (string, string) -> string, visited: set<string>,
                      next: seq<string>, i: nat)
    requires |hrefs| > 0 && i <= |queue|
    requires var full := urljoin(url, hrefs[0]);
      next == if netloc(full) == baseHost && full !in visited && full !in queue then queue + [full] else queue
    ensures |queue| <= |next|
    ensures EnqueueLinks(queue, url, hrefs, baseHost, netloc, urljoin, visited)[i..]
         == next[i..] + EnqueueLinks(next, url, hrefs[1..], baseHost, netloc, urljoin, visited)[|next|..]
  {
    var r := EnqueueLinks(next, url, hrefs[1..], baseHost, netloc, urljoin, visited);
    assert EnqueueLinks(queue, url, hrefs, baseHost, netloc, urljoin, visited)
        == EnqueueLinksNonEmpty(queue, url, hrefs, baseHost, netloc, urljoin, visited) == r;
    SuffixOfExtension(r, next, i);
  }

  /** What the link loop appends does not depend on whether "already seen" is
      asked of a visited set plus the queue or of one sequence holding both. */
  lemma {:induction false} EnqueueShift(pre: seq<string>, queue: seq<string>, url: string, hrefs: seq<string>,
                                        baseHost: string, netloc: string -> string,
                                        urljoin: (string, string) -> string, visited: set<string>)
    requires forall x :: x in visited <==> x in pre
    ensures EnqueueLinks(queue, url, hrefs, baseHost, netloc, urljoin, visited)[|queue|..]
         == EnqueueLinks(pre + queue, url, hrefs, baseHost, netloc, urljoin, {})[|pre| + |queue|..]
    decreases |hrefs|
  {
    if |hrefs| > 0 {
      var full := urljoin(url, hrefs[0]);
      var follow := netloc(full) == baseHost && full !in visited && full !in queue;
      var next := if follow then queue + [full] else queue;
      var whole := pre + queue;
      assert follow == (netloc(full) == baseHost && full !in {} && full !in whole) by {
        assert (full in whole) == (full in visited || full in queue);
      }
      assert (pre + next) == if follow then whole + [full] else whole;
      EnqueueUnfold(queue, url, hrefs, baseHost, netloc, urljoin, visited, next, |queue|);
      EnqueueUnfold(whole, url, hrefs, baseHost, netloc, urljoin, {}, pre + next, |pre| + |queue|);
      assert (pre + next)[|pre| + |queue|..] == next[|queue|..];
      EnqueueShift(pre, next, url, hrefs[1..], baseHost, netloc, urljoin, visited);
    }
  }

  /** The frontier an iteration leaves is the rest of the queue followed by the
      new links of the popped URL's page, new with respect to everything fetched
      or queued before. */
  lemma VisitQueuesNewLinks(c: Crawl, baseHost: string, fetch: string -> FetchResult,
                            netloc: string -> string, urljoin: (string, string) -> string)
    requires |c.queue| > 0 && Bookkept(c)
    ensures Visit(c, baseHost, fetch, netloc, urljoin).queue
         == c.queue[1..] + NewLinks(c.fetched + c.queue, c.queue[0], baseHost, fetch, netloc, urljoin)
  {
    VisitBookkept(c, baseHost, fetch, netloc, urljoin);
    var r := Visit(c, baseHost, fetch, netloc, urljoin);
    var url := c.queue[0];
    var rest := c.queue[1..];
    var fetched := c.fetched + [url];
    assert fetched + rest == c.fetched + c.queue;
    match fetch(url)
    case FetchFailed =>
    case Fetched(_, hrefs) =>
      assert r.queue == EnqueueLinks(rest, url, hrefs, baseHost, netloc, urljoin, r.visited);
      assert forall x :: x in r.visited <==> x in fetched;
      EnqueueShift(fetched, rest, url, hrefs, baseHost, netloc, urljoin, r.visited);
      assert r.queue == rest + r.queue[|rest|..];
  }

  /** An iteration of the crawl loop keeps it first in, first out: the popped URL
      is the oldest discovered one not fetched, and what its page queues are its
      new links. */
  lemma VisitBreadthFirst(c: Crawl, baseUrl: string, maxPages: int, fetch: string -> FetchResult,
                          netloc: string -> string, urljoin: (string, string) -> string)
    requires |c.queue| > 0 && c.pageCount < maxPages
    requires Bookkept(c) && Counted(c, fetch)
    requires BreadthFirst(c.fetched, c.queue, baseUrl, maxPages, fetch, netloc, urljoin)
    ensures var r := Visit(c, netloc(baseUrl), fetch, netloc, urljoin);
      BreadthFirst(r.fetched, r.queue, baseUrl, maxPages, fetch, netloc, urljoin)
  {
    var baseHost := netloc(baseUrl);
    VisitBookkept(c, baseHost, fetch, netloc, urljoin);
    VisitQueuesNewLinks(c, baseHost, fetch, netloc, urljoin);
    var r := Visit(c, baseHost, fetch, netloc, urljoin);
    var url := c.queue[0];
    var fetched := c.fetched + [url];
    var known := c.fetched + c.queue;
    assert fetched[..|fetched| - 1] == c.fetched;
    assert Frontier(fetched, baseUrl, fetch, netloc, urljoin)
        == known + NewLinks(known, url, baseHost, fetch, netloc, urljoin);
    assert r.fetched == fetched;
    assert fetched + r.queue == known + NewLinks(known, url, baseHost, fetch, netloc, urljoin) by {
      assert fetched + c.queue[1..] == known;
    }
    FetchedWithBudget(c.fetched, url, baseUrl, maxPages, fetch, netloc, urljoin);
  }

  /** Fetching one more URL while the frontier is not exhausted and the budget
      not spent keeps every fetch within the loop's guard. */
  lemma FetchedWithBudget(fetched: seq<string>, url: string, baseUrl: string, maxPages: int,
                          fetch: string -> FetchResult, netloc: string -> string, urljoin: (string, string) -> string)
    requires forall k :: 0 <= k < |fetched| ==>
      k < |Frontier(fetched[..k], baseUrl, fetch, netloc, urljoin)| && SuccessCount(fetched[..k], fetch) < maxPages
    requires |fetched| < |Frontier(fetched, baseUrl, fetch, netloc, urljoin)| && SuccessCount(fetched, fetch) < maxPages
    ensures var more := fetched + [url];
      forall k :: 0 <= k < |more| ==>
        k < |Frontier(more[..k], baseUrl, fetch, netloc, urljoin)| && SuccessCount(more[..k], fetch) < maxPages
  {
    var more := fetched + [url];
    forall k | 0 <= k < |more|
      ensures k < |Frontier(more[..k], baseUrl, fetch, netloc, urljoin)| && SuccessCount(more[..k], fetch) < maxPages
    {
      if k < |fetched| {
        assert more[..k] == fetched[..k];
      } else {
        assert more[..k] == fetched;
      }
    }
  }

  /** The discovery order after fetching a prefix of `fetched` is a prefix of
      the discovery order after fetching all of it. */
  lemma {:induction false} FrontierPrefix(fetched: seq<string>, k: nat, baseUrl: string, fetch: string -> FetchResult,
                                          netloc: string -> string, urljoin: (string, string) -> string)
    requires k <= |fetched|
    ensures var short := Frontier(fetched[..k], baseUrl, fetch, netloc, urljoin);
      var long := Frontier(fetched, baseUrl, fetch, netloc, urljoin);
      |short| <= |long| && long[..|short|] == short
    decreases |fetched| - k
  {
    if k < |fetched| {
      FrontierPrefix(fetched, k + 1, baseUrl, fetch, netloc, urljoin);
      assert fetched[..k + 1][..k] == fetched[..k];
      var short := Frontier(fetched[..k], baseUrl, fetch, netloc, urljoin);
      var mid := Frontier(fetched[..k + 1], baseUrl, fetch, netloc, urljoin);
      var long := Frontier(fetched, baseUrl, fetch, netloc, urljoin);
      assert mid[..|short|] == short;
      assert long[..|short|] == mid[..|short|];
    } else {
      assert fetched[..k] == fetched;
    }
  }

  /** In a first-in first-out crawl each URL fetched is the next one in the
      discovery order of what was fetched before it. */
  lemma FetchedNextInOrder(fetched: seq<string>, remaining: seq<string>, baseUrl: string, maxPages: int,
                           fetch: string -> FetchResult, netloc: string -> string, urljoin: (string, string) -> string, i: nat)
    requires BreadthFirst(fetched, remaining, baseUrl, maxPages, fetch, netloc, urljoin) && i < |fetched|
    ensures i < |Frontier(fetched[..i], baseUrl, fetch, netloc, urljoin)|
    ensures fetched[i] == Frontier(fetched[..i], baseUrl, fetch, netloc, urljoin)[i]
  {
    FrontierPrefix(fetched, i, baseUrl, fetch, netloc, urljoin);
    assert (fetched + remaining)[i] == fetched[i];
  }

  /** Two first-in first-out crawls from the same base URL fetch the same URLs
      as far as both go. */
  lemma {:induction false} SameFetchPrefix(f1: seq<string>, r1: seq<string>, f2: seq<string>, r2: seq<string>,
                                           baseUrl: string, maxPages: int, fetch: string -> FetchResult,
                                           netloc: string -> string, urljoin: (string, string) -> string, n: nat)
    requires BreadthFirst(f1, r1, baseUrl, maxPages, fetch, netloc, urljoin)
    requires BreadthFirst(f2, r2, baseUrl, maxPages, fetch, netloc, urljoin)
    requires n <= |f1| && n <= |f2|
    ensures f1[..n] == f2[..n]
    decreases n
  {
    if n > 0 {
      SameFetchPrefix(f1, r1, f2, r2, baseUrl, maxPages, fetch, netloc, urljoin, n - 1);
      FetchedNextInOrder(f1, r1, baseUrl, maxPages, fetch, netloc, urljoin, n - 1);
      FetchedNextInOrder(f2, r2, baseUrl, maxPages, fetch, netloc, urljoin, n - 1);
      assert f1[..n] == f1[..n - 1] + [f1[n - 1]];
      assert f2[..n] == f2[..n - 1] + [f2[n - 1]];
    }
  }

  /** When a first-in first-out crawl fetched more than another, the other one
      stopped with URLs still queued and budget left. */
  lemma LongerCrawl(f1: seq<string>, r1: seq<string>, f2: seq<string>, r2: seq<string>,
                    baseUrl: string, maxPages: int, fetch: string -> FetchResult,
                    netloc: string -> string, urljoin: (string, string) -> string)
    requires BreadthFirst(f1, r1, baseUrl, maxPages, fetch, netloc, urljoin)
    requires BreadthFirst(f2, r2, baseUrl, maxPages, fetch, netloc, urljoin)
    requires |f1| < |f2|
    ensures |r1| > 0 && SuccessCount(f1, fetch) < maxPages
  {
    var n := |f1|;
    SameFetchPrefix(f1, r1, f2, r2, baseUrl, maxPages, fetch, netloc, urljoin, n);
    assert f2[..n] == f1;
  }

  /** `BreadthFirst` and `WithinBudget` together fix the crawl: two outcomes
      that both meet them fetched the same URLs in the same order and left the
      same frontier. */
  lemma CrawlDetermined(f1: seq<string>, r1: seq<string>, f2: seq<string>, r2: seq<string>,
                        baseUrl: string, maxPages: int, fetch: string -> FetchResult,
                        netloc: string -> string, urljoin: (string, string) -> string)
    requires BreadthFirst(f1, r1, baseUrl, maxPages, fetch, netloc, urljoin) && WithinBudget(f1, r1, maxPages, fetch)
    requires BreadthFirst(f2, r2, baseUrl, maxPages, fetch, netloc, urljoin) && WithinBudget(f2, r2, maxPages, fetch)
    ensures f1 == f2 && r1 == r2
  {
    if |f1| < |f2| {
      LongerCrawl(f1, r1, f2, r2, baseUrl, maxPages, fetch, netloc, urljoin);
      assert false;
    } else if |f2| < |f1| {
      LongerCrawl(f2, r2, f1, r1, baseUrl, maxPages, fetch, netloc, urljoin);
      assert false;
    } else {
      SameFetchPrefix(f1, r1, f2, r2, baseUrl, maxPages, fetch, netloc, urljoin, |f1|);
      assert f1 == f1[..|f1|] && f2 == f2[..|f2|];
      assert r1 == (f1 + r1)[|f1|..];
      assert r2 == (f2 + r2)[|f2|..];
    }
  }

  /** Everything the crawl loop keeps between iterations. */
  predicate Looping(c: Crawl, baseUrl: string, maxPages: int, fetch: string -> FetchResult,
                    netloc: string -> string, urljoin: (string, string) -> string) {
    && Bookkept(c) && Hosted(c, netloc(baseUrl), netloc) && Counted(c, fetch)
    && Covered(c, netloc(baseUrl), fetch, netloc, urljoin)
    && (|c.fetched| == 0 ==> c.queue == [baseUrl])
    && (|c.fetched| > 0 ==> c.fetched[0] == baseUrl)
    && c.pageCount <= (if maxPages > 0 then maxPages else 0)
    && Discovered(c.fetched, c.queue, baseUrl, fetch, urljoin)
    && BreadthFirst(c.fetched, c.queue, baseUrl, maxPages, fetch, netloc, urljoin)
  }

  /** One iteration of the crawl loop keeps every fact the loop relies on, and
      either counts a page or shortens the frontier. */
  lemma VisitKeepsLoop(c: Crawl, baseUrl: string, maxPages: int, fetch: string -> FetchResult,
                       netloc: string -> string, urljoin: (string, string) -> string)
    requires |c.queue| > 0 && c.pageCount < maxPages
    requires Looping(c, baseUrl, maxPages, fetch, netloc, urljoin)
    ensures var r := Visit(c, netloc(baseUrl), fetch, netloc, urljoin);
      && Looping(r, baseUrl, maxPages, fetch, netloc, urljoin)
      && (c.pageCount < r.pageCount || (c.pageCount == r.pageCount && |r.queue| < |c.queue|))
  {
    var baseHost := netloc(baseUrl);
    VisitDiscovered(c, baseUrl, baseHost, fetch, netloc, urljoin);
    VisitBookkept(c, baseHost, fetch, netloc, urljoin);
    VisitHosted(c, baseHost, fetch, netloc, urljoin);
    VisitCounted(c, baseHost, fetch, netloc, urljoin);
    VisitCovered(c, baseHost, fetch, netloc, urljoin);
    VisitBreadthFirst(c, baseUrl, maxPages, fetch, netloc, urljoin);
  }

  /** When the loop stops, its state is the outcome the crawl promises. */
  lemma LoopDone(c: Crawl, baseUrl: string, maxPages: int, fetch: string -> FetchResult,
                 netloc: string -> string, urljoin: (string, string) -> string)
    requires Looping(c, baseUrl, maxPages, fetch, netloc, urljoin)
    requires !(|c.queue| > 0 && c.pageCount < maxPages)
    ensures VisitsOnce(c.fetched, baseUrl, maxPages, netloc)
    ensures WithinBudget(c.fetched, c.queue, maxPages, fetch)
    ensures FrontierCovers(c.fetched, c.queue, netloc(baseUrl), fetch, netloc, urljoin)
    ensures Discovered(c.fetched, c.queue, baseUrl, fetch, urljoin)
    ensures BreadthFirst(c.fetched, c.queue, baseUrl, maxPages, fetch, netloc, urljoin)
    ensures c.documents == WebRecords(c.fetched, fetch)
  {
  }

  /** `scrape_hexagon_docs`: run `Visit` from the base URL until the frontier
      is empty or `maxPages` pages were fetched successfully.

      Besides the records, the method returns the URLs it fetched, in order, and
      the frontier it left unvisited. */
  method ScrapeHexagonDocs(baseUrl: string, maxPages: int, fetch: string -> FetchResult,
                           netloc: string -> string, urljoin: (string, string) -> string)
    returns (documents: seq<Document>, fetched: seq<string>, remaining: seq<string>)
    ensures VisitsOnce(fetched, baseUrl, maxPages, netloc)
    ensures WithinBudget(fetched, remaining, maxPages, fetch)
    ensures FrontierCovers(fetched, remaining, netloc(baseUrl), fetch, netloc, urljoin)
    ensures Discovered(fetched, remaining, baseUrl, fetch, urljoin)
    ensures BreadthFirst(fetched, remaining, baseUrl, maxPages, fetch, netloc, urljoin)
    ensures documents == WebRecords(fetched, fetch)
  {
    var baseHost := netloc(baseUrl);
    var c := Crawl([], [], {}, [baseUrl], 0);
    while |c.queue| > 0 && c.pageCount < maxPages
      invariant Looping(c, baseUrl, maxPages, fetch, netloc, urljoin)
      decreases maxPages - c.pageCount, |c.queue|
    {
      VisitKeepsLoop(c, baseUrl, maxPages, fetch, netloc, urljoin);
      c := Visit(c, baseHost, fetch, netloc, urljoin);
    }
    LoopDone(c, baseUrl, maxPages, fetch, netloc, urljoin);
    documents, fetched, remaining := c.documents, c.fetched, c.queue;
  }
}

=== FILE: documents.dfy ===
/** The records that flow through the pipeline: loaded documents and the
    chunks cut from them. */
module Documents {
  import opened Optional

  /** The `'type'` tag of a record. */
  datatype DocType = Pdf | Text | Web

  /** A loaded document: `{'content', 'source', 'type'}` plus `'page'` for PDF
      pages (`page == None` when the record has no `'page'` key). */
  datatype Document = Document(content: string, source: string, docType: DocType, page: Option<int>)

  /** A chunk: a stripped window of one document, its provenance, and its
      position `chunkId` in the batch it was cut in. */
  datatype Chunk = Chunk(content: string, source: string, docType: DocType, page: Option<int>, chunkId: nat)
}

=== FILE: generation.dfy ===
/** Answer generation (`SmartPlantRAG.generate_response`): fill the prompt
    template, call the local language model with a length budget, and keep only
    what the model wrote after echoing the prompt.

    The language model is a function parameter from the prompt and the
    `max_length` budget to either the generated text or the message of the
    exception it raised. Sampling (temperature, `do_sample`) is inside it. */
module Generation {
  import opened Strings

  /** What one call of the text-generation pipeline produces. */
  datatype LlmOutcome = Generated(text: string) | Raised(message: string)

  /** The text-generation pipeline: prompt and `max_length` to an outcome. */
  type Llm = (string, nat) -> LlmOutcome

  const NOT_AVAILABLE: string := "Local LLM not available"
  const ERROR_PREFIX: string := "Error generating response: "

  /** The fixed parts of the prompt template, around the context and the
      question. */
  const PROMPT_HEAD: string := "Context about SmartPlant instrumentation:\n"
  const QUESTION_LABEL: string := "\n\nQuestion: "
  const ANSWER_LABEL: string := "\n\nAnswer:"

  /** Extra tokens the model may produce beyond the prompt's word count. */
  const ANSWER_BUDGET: nat := 200

  /** The prompt for `query` over `context`: the template's fixed text plus the
      context and the question, opening with the head and closing with the
      answer label. */
  function Prompt(context: string, query: string): (p: string)
    ensures |p| == |PROMPT_HEAD| + |context| + |QUESTION_LABEL| + |query| + |ANSWER_LABEL|
    ensures p[..|PROMPT_HEAD|] == PROMPT_HEAD
    ensures p[|p| - |ANSWER_LABEL|..] == ANSWER_LABEL
  {
    PROMPT_HEAD + context + QUESTION_LABEL + query + ANSWER_LABEL
  }

  /** `max_length=len(prompt.split()) + 200`. */
  function MaxLength(context: string, query: string): nat {
    WordCount(Prompt(context, query)) + ANSWER_BUDGET
  }

  /** `generate_response`: the fixed reply when the local model is disabled;
      otherwise the model's output with its first `len(prompt)` characters
      dropped and whitespace stripped, or the error message when the call
      raised. A generated answer never starts or ends with whitespace. */
  function GenerateResponse(useLocalLlm: bool, llm: Llm, query: string, context: string): (r: string)
    ensures !useLocalLlm ==> r == NOT_AVAILABLE
    ensures useLocalLlm && llm(Prompt(context, query), MaxLength(context, query)).Generated? ==>
              && Strip(r) == r
              && (r == [] || |r| + |Prompt(context, query)| <= |llm(Prompt(context, query), MaxLength(context, query)).text|)
    ensures useLocalLlm && llm(Prompt(context, query), MaxLength(context, query)).Generated? ==>
              var output := llm(Prompt(context, query), MaxLength(context, query)).text;
              exists i :: StrippedAt(Slice(output, |Prompt(context, query)|, |output|), r, i)
    ensures useLocalLlm && llm(Prompt(context, query), MaxLength(context, query)).Raised? ==>
              r == ERROR_PREFIX + llm(Prompt(context, query), MaxLength(context, query)).message
  {
    if !useLocalLlm then NOT_AVAILABLE
    else
      var prompt := Prompt(context, query);
      match llm(prompt, MaxLength(context, query))
      case Generated(output) =>
        var tail := Slice(output, |prompt|, |output|);
        StripIdempotent(tail);
        StripSpec(tail);
        Strip(tail)
      case Raised(message) => ERROR_PREFIX + message
  }

  // ---------------------------------------------------------------------------
  // The prompt
  // ---------------------------------------------------------------------------

  /** The context and the question appear verbatim in the prompt, in that
      order, after the fixed head and before the answer label. */
  lemma PromptLayout(context: string, query: string)
    ensures var p := Prompt(context, query);
            var q0 := |PROMPT_HEAD| + |context| + |QUESTION_LABEL|;
            && |p| == q0 + |query| + |ANSWER_LABEL|
            && p[..|PROMPT_HEAD|] == PROMPT_HEAD
            && p[|PROMPT_HEAD|..|PROMPT_HEAD| + |context|] == context
            && p[q0..q0 + |query|] == query
            && p[q0 + |query|..] == ANSWER_LABEL
  {
  }

  /** A word followed by whitespace, appended after whitespace, adds one word. */
  lemma WordThenSpace(a: string, w: string, sp: string)
    requires |a| == 0 || IsSpace(a[|a| - 1])
    requires |w| > 0 && Solid(w) && |sp| > 0 && Blank(sp)
    ensures WordCount(a + w + sp) == WordCount(a) + 1
  {
    WordCountAppend(a, w);
    WordCountSolid(w);
    WordCountAppend(a + w, sp);
    WordCountZeroIffBlank(sp);
  }

  /** The first half of the head holds two words. */
  lemma HeadWordsFirstHalf()
    ensures WordCount("Context about ") == 2
  {
    assert "" + "Context" + " " == "Context ";
    WordThenSpace("", "Context", " ");
    WordThenSpace("Context ", "about", " ");
    assert "Context " + "about" + " " == "Context about ";
  }

  /** The head of the template up to its last word holds three words. */
  lemma HeadWordsFirstThree()
    ensures WordCount("Context about SmartPlant ") == 3
  {
    HeadWordsFirstHalf();
    WordThenSpace("Context about ", "SmartPlant", " ");
    assert "Context about " + "SmartPlant" + " " == "Context about SmartPlant ";
  }

  /** The head of the template holds four words. */
  lemma HeadWords()
    ensures WordCount(PROMPT_HEAD) == 4
  {
    HeadWordsFirstThree();
    WordThenSpace("Context about SmartPlant ", "instrumentation:", "\n");
    assert "Context about SmartPlant " + "instrumentation:" + "\n" == PROMPT_HEAD;
  }

  /** The question label holds one word. */
  lemma QuestionLabelWords()
    ensures WordCount(QUESTION_LABEL) == 1
  {
    WordCountZeroIffBlank("\n\n");
    WordThenSpace("\n\n", "Question:", " ");
    assert "\n\n" + "Question:" + " " == QUESTION_LABEL;
  }

  /** The answer label holds one word. */
  lemma AnswerLabelWords()
    ensures WordCount(ANSWER_LABEL) == 1
  {
    WordCountZeroIffBlank("\n\n");
    WordCountAppend("\n\n", "Answer:");
    WordCountSolid("Answer:");
    assert "\n\n" + "Answer:" == ANSWER_LABEL;
  }

  /** `len(prompt.split())` is six plus the words of the context and of the
      question, whatever they contain: the template puts whitespace around
      both, so no word of theirs merges with a word of the template. */
  lemma PromptWordCount(context: string, query: string)
    ensures WordCount(Prompt(context, query)) == 6 + WordCount(context) + WordCount(query)
    ensures MaxLength(context, query) == 206 + WordCount(context) + WordCount(query)
  {
    HeadWords();
    QuestionLabelWords();
    AnswerLabelWords();
    var a := PROMPT_HEAD + context;
    var b := a + QUESTION_LABEL;
    var c := b + query;
    WordCountAppend(PROMPT_HEAD, context);
    WordCountAppend(a, QUESTION_LABEL);
    assert b[|b| - 1] == ' ';
    WordCountAppend(b, query);
    WordCountAppend(c, ANSWER_LABEL);
  }

  // ---------------------------------------------------------------------------
  // The outcomes
  // ---------------------------------------------------------------------------

  /** With the local model disabled the reply is fixed, whatever the model,
      question and context. */
  lemma DisabledIgnoresModel(llm1: Llm, llm2: Llm, query: string, context: string)
    ensures GenerateResponse(false, llm1, query, context) == GenerateResponse(false, llm2, query, context) == NOT_AVAILABLE
  {
  }

  /** A model that echoes the prompt and continues with `rest` yields `rest`
      stripped. */
  lemma EchoedPromptIsDropped(llm: Llm, query: string, context: string, rest: string)
    requires llm(Prompt(context, query), MaxLength(context, query)) == Generated(Prompt(context, query) + rest)
    ensures GenerateResponse(true, llm, query, context) == Strip(rest)
  {
    var p := Prompt(context, query);
    assert Slice(p + rest, |p|, |p + rest|) == rest;
  }

  /** An output no longer than the prompt leaves nothing after it: the answer is
      empty. */
  lemma ShortOutputGivesEmptyAnswer(llm: Llm, query: string, context: string)
    requires llm(Prompt(context, query), MaxLength(context, query)).Generated?
    requires |llm(Prompt(context, query), MaxLength(context, query)).text| <= |Prompt(context, query)|
    ensures GenerateResponse(true, llm, query, context) == ""
  {
  }

  /** A failing model call is reported, not raised: the answer is the fixed
      prefix followed by the exception's message. */
  lemma FailureIsReported(llm: Llm, query: string, context: string)
    requires llm(Prompt(context, query), MaxLength(context, query)).Raised?
    ensures var r := GenerateResponse(true, llm, query, context);
            && |ERROR_PREFIX| <= |r|
            && r[..|ERROR_PREFIX|] == ERROR_PREFIX
            && r[|ERROR_PREFIX|..] == llm(Prompt(context, query), MaxLength(context, query)).message
  {
  }
}

=== FILE: index.dfy ===
/** Indexing (`SmartPlantRAG.index_documents`) and the saved system state
    (`SmartPlantRAG.save_system_state`).

    The embedder is a function parameter: it maps the list of chunk texts to
    whatever vectors the sentence-transformer produces. The vector store is not
    modelled; what is modelled is the batch of parallel lists handed to
    `collection.add`, and the replacement of the system's chunk list. */
module Index {
  import opened Optional
  import opened Strings
  import opened Config
  import opened Documents
  import opened Chunker

  /** An embedding vector. */
  type Embedding = seq<real>

  /** The value stored under the `'page'` metadata key of a chunk. */
  datatype MetaPage = PageNumber(n: int) | NullPage | BlankPage

  /** The metadata dictionary stored with each chunk. */
  datatype ChunkMeta = ChunkMeta(source: string, docType: DocType, page: MetaPage, chunkId: nat)

  /** The parallel lists handed to `collection.add`. */
  datatype IndexBatch = IndexBatch(ids: seq<string>, embeddings: seq<Embedding>, texts: seq<string>, metadatas: seq<ChunkMeta>)

  /** The mutable part of a `SmartPlantRAG` that indexing and saving touch. */
  datatype Rag = Rag(useLocalLlm: bool, chunks: seq<Chunk>)

  /** The record written to `system_state.json`. */
  datatype SystemState = SystemState(chunksCount: nat, embeddingModel: string, llmModel: Option<string>, indexedAt: string)

  // ---------------------------------------------------------------------------
  // Store keys
  // ---------------------------------------------------------------------------

  const KEY_PREFIX: string := "chunk_"

  /** `f"chunk_{i}"`. */
  function ChunkKey(i: nat): string {
    KEY_PREFIX + NatToString(i)
  }

  /** The number a store key was made from, read back from its digits. */
  function KeyNumber(key: string): int {
    if |key| < |KEY_PREFIX| then -1 else ParseNat(key[|KEY_PREFIX|..])
  }

  /** A store key names the position it was made from. */
  lemma KeyNumberOfChunkKey(i: nat)
    ensures KeyNumber(ChunkKey(i)) == i
  {
    assert ChunkKey(i)[|KEY_PREFIX|..] == NatToString(i);
    ParseNatToString(i);
  }

  /** Distinct positions get distinct store keys. */
  lemma ChunkKeysDistinct(i: nat, j: nat)
    ensures ChunkKey(i) == ChunkKey(j) <==> i == j
  {
    if ChunkKey(i) == ChunkKey(j) {
      KeyNumberOfChunkKey(i);
      KeyNumberOfChunkKey(j);
    }
  }

  // ---------------------------------------------------------------------------
  // Metadata
  // ---------------------------------------------------------------------------

  /** The metadata of a chunk as the Python builds it. Every chunk dictionary has
      a `'page'` key (`None` for text and web documents), so the default of
      `chunk.get('page', '')` never applies and a missing page is stored as
      `None`. */
  function MetaOfAsWritten(c: Chunk): (m: ChunkMeta)
    ensures m.source == c.source && m.docType == c.docType && m.chunkId == c.chunkId
    ensures m.page != BlankPage
    ensures m.page.PageNumber? <==> c.page.Some?
    ensures c.page.Some? ==> m.page.n == c.page.value
  {
    ChunkMeta(c.source, c.docType, if c.page.Some? then PageNumber(c.page.value) else NullPage, c.chunkId)
  }

  /** The metadata of a chunk with the evidently intended default: a chunk
      without a page number is stored with the empty string as its page. */
  function MetaOf(c: Chunk): (m: ChunkMeta)
    ensures m.source == c.source && m.docType == c.docType && m.chunkId == c.chunkId
    ensures m.page != NullPage
    ensures m.page.PageNumber? <==> c.page.Some?
    ensures c.page.Some? ==> m.page.n == c.page.value
  {
    ChunkMeta(c.source, c.docType, if c.page.Some? then PageNumber(c.page.value) else BlankPage, c.chunkId)
  }

  /** As written, a chunk of a text or web document is stored with a `None`
      page, never with the `''` the lookup's default names. */
  lemma PageDefaultNeverApplies(c: Chunk)
    requires c.page.None?
    ensures MetaOfAsWritten(c).page == NullPage
    ensures MetaOfAsWritten(c).page != BlankPage
    ensures MetaOf(c).page == BlankPage
  {
  }

  // ---------------------------------------------------------------------------
  // Index records
  // ---------------------------------------------------------------------------

  /** The lists `index_documents` hands to the store for `chunks`, as the
      Python builds them: key `chunk_{i}`, text and metadata per chunk, in chunk
      order, and the embedder's vectors for the texts. A chunk without a page
      is stored with a null page. */
  function IndexRecords(chunks: seq<Chunk>, embed: seq<string> -> seq<Embedding>): (b: IndexBatch)
    ensures |b.ids| == |b.texts| == |b.metadatas| == |chunks|
    ensures forall i :: 0 <= i < |chunks| ==> b.ids[i] == ChunkKey(i) && KeyNumber(b.ids[i]) == i
    ensures forall i :: 0 <= i < |chunks| ==> b.texts[i] == chunks[i].content
    ensures forall i :: 0 <= i < |chunks| ==>
              && b.metadatas[i].source == chunks[i].source
              && b.metadatas[i].docType == chunks[i].docType
              && b.metadatas[i].chunkId == chunks[i].chunkId
              && (chunks[i].page.Some? ==> b.metadatas[i].page == PageNumber(chunks[i].page.value))
              && (chunks[i].page.None? ==> b.metadatas[i].page == NullPage)
    ensures b.embeddings == embed(b.texts)
  {
    var texts := seq(|chunks|, i requires 0 <= i < |chunks| => chunks[i].content);
    var ids := seq(|chunks|, i requires 0 <= i < |chunks| => ChunkKey(i));
    forall i | 0 <= i < |chunks| ensures KeyNumber(ids[i]) == i {
      KeyNumberOfChunkKey(i);
    }
    IndexBatch(ids, embed(texts), texts, seq(|chunks|, i requires 0 <= i < |chunks| => MetaOfAsWritten(chunks[i])))
  }

  /** The store batch with the evidently intended page default: the same keys,
      texts and vectors, with every chunk's metadata built by `MetaOf`. */
  function IndexRecordsIntended(chunks: seq<Chunk>, embed: seq<string> -> seq<Embedding>): (b: IndexBatch)
    ensures |b.metadatas| == |chunks|
    ensures forall i :: 0 <= i < |chunks| ==> b.metadatas[i].page != NullPage
  {
    IndexRecords(chunks, embed).(metadatas := seq(|chunks|, i requires 0 <= i < |chunks| => MetaOf(chunks[i])))
  }

  /** The batch as written and the intended one agree on every key, text and
      vector, and on every metadata field but the page; the pages differ
      exactly for the chunks without a page number, which the Python stores as
      null and the intended default as the empty string. */
  lemma IntendedBatchDiffersOnlyInBlankPages(chunks: seq<Chunk>, embed: seq<string> -> seq<Embedding>)
    ensures var w := IndexRecords(chunks, embed);
            var b := IndexRecordsIntended(chunks, embed);
            && b.ids == w.ids && b.texts == w.texts && b.embeddings == w.embeddings
            && |b.metadatas| == |w.metadatas|
            && (forall i :: 0 <= i < |chunks| ==>
                  && b.metadatas[i] == w.metadatas[i].(page := b.metadatas[i].page)
                  && (b.metadatas[i] != w.metadatas[i] <==> chunks[i].page.None?)
                  && (chunks[i].page.None? ==> w.metadatas[i].page == NullPage && b.metadatas[i].page == BlankPage))
  {
  }

  /** `index_documents`: chunk the documents, replace the system's chunk list with
      the result, and build the store batch for it. */
  method IndexDocuments(rag: Rag, docs: seq<Document>, embed: seq<string> -> seq<Embedding>)
    returns (next: Rag, batch: IndexBatch)
    ensures next.useLocalLlm == rag.useLocalLlm
    ensures next.chunks == Batch(docs, 0)
    ensures batch == IndexRecords(next.chunks, embed)
    ensures |batch.ids| == ChunkCount(docs)
    ensures forall i, j :: 0 <= i < j < |batch.ids| ==> batch.ids[i] != batch.ids[j]
    ensures forall i :: 0 <= i < |batch.metadatas| ==> batch.metadatas[i].chunkId == i
  {
    var chunks := ChunkDocuments(docs);
    next := rag.(chunks := chunks);
    batch := IndexRecords(chunks, embed);
    IndexedKeysAndIds(chunks, embed);
  }

  /** For a freshly chunked list, record `i` of the store batch carries chunk
      number `i` in its metadata, its key names that same number, and no two
      records share a key. */
  lemma IndexedKeysAndIds(chunks: seq<Chunk>, embed: seq<string> -> seq<Embedding>)
    requires forall k :: 0 <= k < |chunks| ==> chunks[k].chunkId == k
    ensures var b := IndexRecords(chunks, embed);
            && (forall i :: 0 <= i < |chunks| ==> b.metadatas[i].chunkId == i && KeyNumber(b.ids[i]) == b.metadatas[i].chunkId)
            && (forall i, j :: 0 <= i < j < |chunks| ==> b.ids[i] != b.ids[j])
  {
    var b := IndexRecords(chunks, embed);
    forall i, j | 0 <= i < j < |chunks|
      ensures b.ids[i] != b.ids[j]
    {
      assert KeyNumber(b.ids[i]) != KeyNumber(b.ids[j]);
    }
  }

  // ---------------------------------------------------------------------------
  // Saved state
  // ---------------------------------------------------------------------------

  /** The record `save_system_state` writes; `cwd` is the absolute working
      directory, which the Python stores as `indexed_at`. */
  function SaveSystemState(rag: Rag, cwd: string): (s: SystemState)
    ensures s.chunksCount == |rag.chunks|
    ensures s.llmModel.Some? <==> rag.useLocalLlm
    ensures s.llmModel.Some? ==> s.llmModel.value == LLM_MODEL
    ensures s.embeddingModel == EMBEDDING_MODEL
    ensures s.indexedAt == cwd
  {
    SystemState(|rag.chunks|, EMBEDDING_MODEL, if rag.useLocalLlm then Some(LLM_MODEL) else None, cwd)
  }

  /** After indexing `docs`, the saved chunk count is the number of chunks the
      documents yield, whatever was indexed before; it does not depend on the
      order the documents were loaded in. */
  lemma StateAfterIndexing(rag: Rag, docs: seq<Document>, reordered: seq<Document>, cwd: string)
    requires multiset(docs) == multiset(reordered)
    ensures SaveSystemState(rag.(chunks := Batch(docs, 0)), cwd).chunksCount == ChunkCount(docs)
    ensures SaveSystemState(rag.(chunks := Batch(docs, 0)), cwd).chunksCount
         == SaveSystemState(rag.(chunks := Batch(reordered, 0)), cwd).chunksCount
  {
    BatchLength(docs, 0);
    BatchLength(reordered, 0);
    ChunkCountPermutation(docs, reordered);
  }
}

=== FILE: loader.dfy ===
/** Building document records (`DocumentLoader.load_pdf`, `load_text_file`,
    `load_all_documents` and `save_documents_metadata`).

    Reading files is a function parameter: `readPdf` gives the text PyPDF2
    extracts from each page, in page order, and `readText` gives the decoded
    content of a text file or `None` when opening or decoding it raised. The
    directory walk is an input list of entries, each with the path, whether it
    is a regular file and its `pathlib` suffix. */
module Loader {
  import opened Optional
  import opened Strings
  import opened Config
  import opened Documents
  import opened Crawler

  /** One path found under the documents directory. */
  datatype FileEntry = FileEntry(path: string, isFile: bool, suffix: string)

  /** One entry of `documents_metadata.json`. */
  datatype DocMeta = DocMeta(source: string, docType: DocType, contentLength: nat, page: Option<int>)

  /** A record carries a page number exactly when it is a PDF page. */
  predicate PagedIffPdf(d: Document) {
    d.page.Some? <==> d.docType == Pdf
  }

  // ---------------------------------------------------------------------------
  // PDF files
  // ---------------------------------------------------------------------------

  /** The record of page `number` (1-based) with text `text`: none when the
      text is blank. */
  function PageRecord(path: string, text: string, number: nat): seq<Document> {
    if |Strip(text)| > 0 then [Document(text, path, Pdf, Some(number))] else []
  }

  /** `load_pdf` over the page texts extracted. When extraction raises part-way
      through a file, `pages` is the pages read before the failure; their
      records are kept. */
  function LoadPdf(path: string, pages: seq<string>): (r: seq<Document>)
    ensures |r| <= |pages|
    ensures forall d :: d in r ==> d.source == path && d.docType == Pdf
  {
    if |pages| == 0 then []
    else LoadPdf(path, pages[..|pages| - 1]) + PageRecord(path, pages[|pages| - 1], |pages|)
  }

  /** `load_pdf` emits exactly the non-blank pages, each as a PDF record of the
      file with its 1-based page number and its text, in page order. */
  lemma LoadPdfExactly(path: string, pages: seq<string>)
    ensures forall d :: d in LoadPdf(path, pages) ==>
              && d.docType == Pdf && d.source == path && d.page.Some?
              && 1 <= d.page.value <= |pages| && d.content == pages[d.page.value - 1]
              && !Blank(d.content)
    ensures forall k :: 0 <= k < |pages| ==>
              (Document(pages[k], path, Pdf, Some(k + 1)) in LoadPdf(path, pages) <==> !Blank(pages[k]))
    ensures forall i, j :: 0 <= i < j < |LoadPdf(path, pages)| ==>
              LoadPdf(path, pages)[i].page.value < LoadPdf(path, pages)[j].page.value
  {
    LoadPdfPages(path, pages);
    LoadPdfKeepsNonBlank(path, pages);
    LoadPdfOrdered(path, pages);
  }

  /** Each record of `load_pdf` is a non-blank page of the file with its
      1-based page number. */
  lemma {:induction false} LoadPdfPages(path: string, pages: seq<string>)
    ensures forall d :: d in LoadPdf(path, pages) ==>
              && d.page.Some? && 1 <= d.page.value <= |pages|
              && d.content == pages[d.page.value - 1] && !Blank(d.content)
  {
    if |pages| > 0 {
      var n := |pages|;
      var init := pages[..n - 1];
      LoadPdfPages(path, init);
      StripEmptyIffBlank(pages[n - 1]);
      assert LoadPdf(path, pages) == LoadPdf(path, init) + PageRecord(path, pages[n - 1], n);
      forall k | 0 <= k < n - 1 ensures init[k] == pages[k] { }
    }
  }

  /** Page `k + 1` has a record exactly when its text is not blank. */
  lemma {:induction false} LoadPdfKeepsNonBlank(path: string, pages: seq<string>)
    ensures forall k :: 0 <= k < |pages| ==>
              (Document(pages[k], path, Pdf, Some(k + 1)) in LoadPdf(path, pages) <==> !Blank(pages[k]))
  {
    if |pages| > 0 {
      var n := |pages|;
      var init := pages[..n - 1];
      LoadPdfKeepsNonBlank(path, init);
      LoadPdfPages(path, init);
      StripEmptyIffBlank(pages[n - 1]);
      assert LoadPdf(path, pages) == LoadPdf(path, init) + PageRecord(path, pages[n - 1], n);
      forall k | 0 <= k < n - 1 ensures init[k] == pages[k] { }
    }
  }

  /** The records of `load_pdf` are in increasing page order. */
  lemma {:induction false} LoadPdfOrdered(path: string, pages: seq<string>)
    ensures forall d :: d in LoadPdf(path, pages) ==> d.page.Some?
    ensures forall i, j :: 0 <= i < j < |LoadPdf(path, pages)| ==>
              LoadPdf(path, pages)[i].page.value < LoadPdf(path, pages)[j].page.value
  {
    if |pages| > 0 {
      var n := |pages|;
      var init := pages[..n - 1];
      var own := LoadPdf(path, init);
      LoadPdfOrdered(path, init);
      LoadPdfPages(path, init);
      var all: seq<Document> := own + PageRecord(path, pages[n - 1], n);
      assert LoadPdf(path, pages) == all;
      forall i, j | 0 <= i < j < |all|
        ensures all[i].page.value < all[j].page.value
      {
        if j >= |own| {
          assert all[i] in own;
        }
      }
    }
  }

  /** A file whose extraction fails after `n` pages keeps the records of those
      pages: they are the start of the records of the whole file. */
  lemma {:induction false} LoadPdfPrefix(path: string, pages: seq<string>, n: nat)
    requires n <= |pages|
    ensures var r := LoadPdf(path, pages[..n]);
            |r| <= |LoadPdf(path, pages)| && LoadPdf(path, pages)[..|r|] == r
    decreases |pages|
  {
    if n < |pages| {
      var init := pages[..|pages| - 1];
      LoadPdfPrefix(path, init, n);
      assert init[..n] == pages[..n];
    } else {
      assert pages[..n] == pages;
    }
  }

  // ---------------------------------------------------------------------------
  // Text files
  // ---------------------------------------------------------------------------

  /** `load_text_file`: one text record, without a page, when the file could be
      read and its content is not blank; nothing otherwise. */
  function LoadTextFile(path: string, content: Option<string>): (r: seq<Document>)
    ensures |r| <= 1
    ensures |r| == 1 <==> content.Some? && !Blank(content.value)
    ensures |r| == 1 ==> r[0] == Document(content.value, path, Text, None)
  {
    if content.Some? then
      StripEmptyIffBlank(content.value);
      if |Strip(content.value)| > 0 then [Document(content.value, path, Text, None)] else []
    else []
  }

  // ---------------------------------------------------------------------------
  // Local files
  // ---------------------------------------------------------------------------

  /** The records one directory entry contributes: files whose lower-cased
      suffix is supported are dispatched to the PDF or the text loader. */
  function LoadFile(entry: FileEntry, readPdf: string -> seq<string>, readText: string -> Option<string>): (r: seq<Document>)
    ensures forall d :: d in r ==> d.source == entry.path
    ensures |r| > 0 ==> entry.isFile && LowerAscii(entry.suffix) in [".pdf", ".txt", ".md"]
    ensures entry.isFile && LowerAscii(entry.suffix) == ".pdf" ==> r == LoadPdf(entry.path, readPdf(entry.path))
    ensures entry.isFile && LowerAscii(entry.suffix) in [".txt", ".md"] ==>
              r == LoadTextFile(entry.path, readText(entry.path))
  {
    var ext := LowerAscii(entry.suffix);
    if !entry.isFile || ext !in SUPPORTED_EXTENSIONS then []
    else if ext == ".pdf" then LoadPdf(entry.path, readPdf(entry.path))
    else if ext in [".txt", ".md"] then LoadTextFile(entry.path, readText(entry.path))
    else []
  }

  /** Dispatch ignores the case of the suffix: entries whose suffixes agree
      once lower-cased load the same records. */
  lemma DispatchIgnoresCase(e1: FileEntry, e2: FileEntry, readPdf: string -> seq<string>, readText: string -> Option<string>)
    requires e1.path == e2.path && e1.isFile == e2.isFile
    requires LowerAscii(e1.suffix) == LowerAscii(e2.suffix)
    ensures LoadFile(e1, readPdf, readText) == LoadFile(e2, readPdf, readText)
  {
  }

  /** A file named `*.PDF` is read as a PDF. */
  lemma UpperCasePdfIsPdf(e: FileEntry, readPdf: string -> seq<string>, readText: string -> Option<string>)
    requires e.isFile && e.suffix == ".PDF"
    ensures LoadFile(e, readPdf, readText) == LoadPdf(e.path, readPdf(e.path))
  {
    assert LowerAscii(".PDF") == ".pdf";
  }

  /** A local `.html` file passes the suffix filter but no loader takes it, so it
      contributes no record. */
  lemma HtmlFileContributesNothing(e: FileEntry, readPdf: string -> seq<string>, readText: string -> Option<string>)
    requires e.isFile && LowerAscii(e.suffix) == ".html"
    ensures LowerAscii(e.suffix) in SUPPORTED_EXTENSIONS
    ensures LoadFile(e, readPdf, readText) == []
  {
  }

  /** Every record of a directory entry comes from that entry's path, is a PDF
      page (with a page number) or a text file (without one), and is not
      blank. */
  lemma LoadFileRecords(e: FileEntry, readPdf: string -> seq<string>, readText: string -> Option<string>)
    ensures forall d :: d in LoadFile(e, readPdf, readText) ==>
              d.source == e.path && d.docType != Web && PagedIffPdf(d) && !Blank(d.content)
  {
    LoadPdfExactly(e.path, readPdf(e.path));
  }

  /** The records of all directory entries, in walk order. */
  function LoadLocalDocuments(files: seq<FileEntry>, readPdf: string -> seq<string>, readText: string -> Option<string>): (r: seq<Document>)
    ensures forall d :: d in r ==> d.docType != Web && !Blank(d.content)
  {
    if |files| == 0 then []
    else
      LoadFileRecords(files[|files| - 1], readPdf, readText);
      LoadLocalDocuments(files[..|files| - 1], readPdf, readText) + LoadFile(files[|files| - 1], readPdf, readText)
  }

  /** Every local record comes from one of the directory entries, is not a web
      record, carries a page number exactly when it is a PDF page, and is not
      blank. */
  lemma {:induction false} LocalRecords(files: seq<FileEntry>, readPdf: string -> seq<string>, readText: string -> Option<string>)
    ensures forall d :: d in LoadLocalDocuments(files, readPdf, readText) ==>
              && (exists k :: 0 <= k < |files| && d.source == files[k].path)
              && d.docType != Web && PagedIffPdf(d) && !Blank(d.content)
  {
    if |files| > 0 {
      var n := |files|;
      var init := files[..n - 1];
      LocalRecords(init, readPdf, readText);
      LoadFileRecords(files[n - 1], readPdf, readText);
      forall d | d in LoadLocalDocuments(init, readPdf, readText)
        ensures exists k :: 0 <= k < n && d.source == files[k].path
      {
        var k :| 0 <= k < n - 1 && d.source == init[k].path;
        assert files[k] == init[k];
      }
    }
  }

  // ---------------------------------------------------------------------------
  // All documents
  // ---------------------------------------------------------------------------

  /** The records of several crawls, one after another. */
  function CrawlRecords(crawls: seq<seq<string>>, fetch: string -> FetchResult): seq<Document> {
    if |crawls| == 0 then []
    else CrawlRecords(crawls[..|crawls| - 1], fetch) + WebRecords(crawls[|crawls| - 1], fetch)
  }

  /** One more crawl appends its records. */
  lemma CrawlRecordsSnoc(crawls: seq<seq<string>>, fetched: seq<string>, fetch: string -> FetchResult)
    ensures CrawlRecords(crawls + [fetched], fetch) == CrawlRecords(crawls, fetch) + WebRecords(fetched, fetch)
  {
    assert (crawls + [fetched])[..|crawls|] == crawls;
  }

  /** Every record of the crawls is a page-less, non-blank web record. */
  lemma {:induction false} CrawlRecordsAreWeb(crawls: seq<seq<string>>, fetch: string -> FetchResult)
    ensures forall d :: d in CrawlRecords(crawls, fetch) ==> d.docType == Web && d.page == None && !Blank(d.content)
  {
    if |crawls| > 0 {
      CrawlRecordsAreWeb(crawls[..|crawls| - 1], fetch);
      WebRecordsAreFetchedPages(crawls[|crawls| - 1], fetch);
    }
  }

  /** What a crawl from `baseUrl` with budget `maxPages` guarantees of the URLs
      it fetched and the frontier it left. */
  predicate CrawlOutcome(baseUrl: string, maxPages: int, fetched: seq<string>, remaining: seq<string>,
                         fetch: string -> FetchResult, netloc: string -> string, urljoin: (string, string) -> string) {
    && VisitsOnce(fetched, baseUrl, maxPages, netloc)
    && WithinBudget(fetched, remaining, maxPages, fetch)
    && FrontierCovers(fetched, remaining, netloc(baseUrl), fetch, netloc, urljoin)
    && Discovered(fetched, remaining, baseUrl, fetch, urljoin)
    && BreadthFirst(fetched, remaining, baseUrl, maxPages, fetch, netloc, urljoin)
  }

  /** A further crawl that meets its outcome extends the crawls that met
      theirs. */
  lemma OutcomesSnoc(urls: seq<string>, maxPages: int, crawls: seq<seq<string>>, frontiers: seq<seq<string>>,
                     fetched: seq<string>, remaining: seq<string>,
                     fetch: string -> FetchResult, netloc: string -> string, urljoin: (string, string) -> string)
    requires |crawls| == |frontiers| < |urls|
    requires forall j :: 0 <= j < |crawls| ==> CrawlOutcome(urls[j], maxPages, crawls[j], frontiers[j], fetch, netloc, urljoin)
    requires VisitsOnce(fetched, urls[|crawls|], maxPages, netloc)
    requires WithinBudget(fetched, remaining, maxPages, fetch)
    requires FrontierCovers(fetched, remaining, netloc(urls[|crawls|]), fetch, netloc, urljoin)
    requires Discovered(fetched, remaining, urls[|crawls|], fetch, urljoin)
    requires BreadthFirst(fetched, remaining, urls[|crawls|], maxPages, fetch, netloc, urljoin)
    ensures forall j :: 0 <= j < |crawls| + 1 ==>
              CrawlOutcome(urls[j], maxPages, (crawls + [fetched])[j], (frontiers + [remaining])[j], fetch, netloc, urljoin)
  {
    forall j | 0 <= j < |crawls| + 1
      ensures CrawlOutcome(urls[j], maxPages, (crawls + [fetched])[j], (frontiers + [remaining])[j], fetch, netloc, urljoin)
    {
      if j < |crawls| {
        assert (crawls + [fetched])[j] == crawls[j] && (frontiers + [remaining])[j] == frontiers[j];
      }
    }
  }

  /** `load_all_documents`: the local records in walk order, then the records of
      a crawl from each start URL with the default page budget, in the order of
      the start URLs. `crawls[i]` and `frontiers[i]` are the URLs the crawl from
      start URL `i` fetched and left queued. */
  method LoadAllDocuments(files: seq<FileEntry>, readPdf: string -> seq<string>, readText: string -> Option<string>,
                          fetch: string -> FetchResult, netloc: string -> string, urljoin: (string, string) -> string)
    returns (all: seq<Document>, ghost crawls: seq<seq<string>>, ghost frontiers: seq<seq<string>>)
    ensures |crawls| == |frontiers| == |HEXAGON_URLS|
    ensures all == LoadLocalDocuments(files, readPdf, readText) + CrawlRecords(crawls, fetch)
    ensures forall i :: 0 <= i < |HEXAGON_URLS| ==>
              CrawlOutcome(HEXAGON_URLS[i], MAX_PAGES, crawls[i], frontiers[i], fetch, netloc, urljoin)
    ensures forall k :: |LoadLocalDocuments(files, readPdf, readText)| <= k < |all| ==> all[k].docType == Web && all[k].page == None
    ensures forall d :: d in all ==> PagedIffPdf(d) && !Blank(d.content)
  {
    var web: seq<Document> := [];
    crawls, frontiers := [], [];
    var i := 0;
    while i < |HEXAGON_URLS|
      invariant i <= |HEXAGON_URLS| && |crawls| == |frontiers| == i
      invariant web == CrawlRecords(crawls, fetch)
      invariant forall j :: 0 <= j < i ==>
                  CrawlOutcome(HEXAGON_URLS[j], MAX_PAGES, crawls[j], frontiers[j], fetch, netloc, urljoin)
    {
      var documents, fetched, remaining := ScrapeHexagonDocs(HEXAGON_URLS[i], MAX_PAGES, fetch, netloc, urljoin);
      OutcomesSnoc(HEXAGON_URLS, MAX_PAGES, crawls, frontiers, fetched, remaining, fetch, netloc, urljoin);
      CrawlRecordsSnoc(crawls, fetched, fetch);
      web := web + documents;
      crawls, frontiers := crawls + [fetched], frontiers + [remaining];
      i := i + 1;
    }
    var local := LoadLocalDocuments(files, readPdf, readText);
    all := local + web;
    LoadedRecordsShape(local, web, files, readPdf, readText, crawls, fetch);
  }

  /** The local records followed by the crawl records: page-less web records
      after the local ones, and every record non-blank with a page exactly
      when it is a PDF page. */
  lemma LoadedRecordsShape(local: seq<Document>, web: seq<Document>, files: seq<FileEntry>, readPdf: string -> seq<string>,
                           readText: string -> Option<string>, crawls: seq<seq<string>>, fetch: string -> FetchResult)
    requires local == LoadLocalDocuments(files, readPdf, readText) && web == CrawlRecords(crawls, fetch)
    ensures forall k :: |local| <= k < |local + web| ==> (local + web)[k].docType == Web && (local + web)[k].page == None
    ensures forall d :: d in local + web ==> PagedIffPdf(d) && !Blank(d.content)
  {
    LocalRecords(files, readPdf, readText);
    CrawlRecordsAreWeb(crawls, fetch);
    forall k | |local| <= k < |local + web| ensures (local + web)[k] in web {
      assert (local + web)[k] == web[k - |local|];
    }
  }

  // ---------------------------------------------------------------------------
  // Metadata file
  // ---------------------------------------------------------------------------

  /** The metadata entry of one record. */
  function DocMetaOf(d: Document): DocMeta {
    DocMeta(d.source, d.docType, |d.content|, d.page)
  }

  /** `save_documents_metadata`: one entry per record, in record order. */
  function SaveDocumentsMetadata(docs: seq<Document>): (m: seq<DocMeta>)
    ensures |m| == |docs|
    ensures forall k :: 0 <= k < |docs| ==> m[k] == DocMetaOf(docs[k])
  {
    seq(|docs|, k requires 0 <= k < |docs| => DocMetaOf(docs[k]))
  }

  /** The metadata of loaded documents records the full length of each
      document's text, and a page number exactly for PDF pages (`None` for text
      and web records); the entries of a concatenation are the entries of its
      parts. */
  lemma MetadataOfLoadedDocuments(a: seq<Document>, b: seq<Document>)
    requires forall d :: d in a + b ==> PagedIffPdf(d)
    ensures SaveDocumentsMetadata(a + b) == SaveDocumentsMetadata(a) + SaveDocumentsMetadata(b)
    ensures forall k :: 0 <= k < |a + b| ==>
              && SaveDocumentsMetadata(a + b)[k].contentLength == |(a + b)[k].content|
              && (SaveDocumentsMetadata(a + b)[k].page.Some? <==> SaveDocumentsMetadata(a + b)[k].docType == Pdf)
  {
    var ab := a + b;
    forall k | 0 <= k < |ab| ensures PagedIffPdf(ab[k]) {
      assert ab[k] in ab;
    }
  }
}

=== FILE: optional.dfy ===
/** A value that may be absent: Python's `None` versus a present value. */
module Optional {

  datatype Option<+T> = None | Some(value: T)
}

=== FILE: query.dfy ===
/** The question-answering pipeline (`SmartPlantRAG.query`): retrieve chunks for
    the question, join them into one context, have the generator answer over it,
    and report one source record per retrieved chunk together with a preview of
    the context. */
module QueryPipeline {
  import opened Optional
  import opened Strings
  import opened Documents
  import opened Index
  import opened Retrieval
  import opened Generation

  const NO_MATCH_ANSWER: string := "No relevant documentation found for your question."
  const CONTEXT_SEPARATOR: string := "\n\n"
  const PREVIEW_LENGTH: nat := 500
  const ELLIPSIS: string := "..."

  /** A source record: provenance of one retrieved chunk and its relevance. */
  datatype SourceInfo = SourceInfo(source: string, docType: DocType, page: MetaPage, relevanceScore: real)

  /** The dictionary `query` returns. */
  datatype QueryResult = QueryResult(answer: string, sources: seq<SourceInfo>, context: string)

  /** `1 - chunk.get('distance', 0) if chunk.get('distance') else 1.0`: a missing
      distance (and a zero one) scores `1.0`. Either way the score is one minus
      the distance when there is one. */
  function RelevanceScore(distance: Option<real>): (score: real)
    ensures distance.Some? ==> score == 1.0 - distance.value
    ensures distance.None? ==> score == 1.0
  {
    if distance.Some? && distance.value != 0.0 then 1.0 - distance.value else 1.0
  }

  /** Closer chunks score higher: the score reverses the order of distances.
      This holds over exact reals; the source's float subtraction can round two
      nearby distances to the same score. */
  lemma RelevanceReversesDistance(d1: real, d2: real)
    ensures d1 < d2 <==> RelevanceScore(Some(d1)) > RelevanceScore(Some(d2))
    ensures d1 == d2 <==> RelevanceScore(Some(d1)) == RelevanceScore(Some(d2))
  {
  }

  /** The source record of one retrieved chunk. */
  function SourceOf(chunk: Retrieved): SourceInfo {
    SourceInfo(chunk.metadata.source, chunk.metadata.docType, chunk.metadata.page, RelevanceScore(chunk.distance))
  }

  /** `[chunk['content'] for chunk in chunks]`. */
  function Contents(chunks: seq<Retrieved>): (texts: seq<string>)
    ensures |texts| == |chunks|
    ensures forall i :: 0 <= i < |chunks| ==> texts[i] == chunks[i].content
  {
    seq(|chunks|, i requires 0 <= i < |chunks| => chunks[i].content)
  }

  /** `context[:500] + "..." if len(context) > 500 else context`. */
  function Preview(context: string): (r: string)
    ensures |r| <= PREVIEW_LENGTH + |ELLIPSIS|
    ensures |context| <= PREVIEW_LENGTH ==> r == context
    ensures |context| > PREVIEW_LENGTH ==>
              && |r| == PREVIEW_LENGTH + |ELLIPSIS|
              && r[..PREVIEW_LENGTH] == context[..PREVIEW_LENGTH]
              && r[PREVIEW_LENGTH..] == ELLIPSIS
  {
    if |context| > PREVIEW_LENGTH then context[..PREVIEW_LENGTH] + ELLIPSIS else context
  }

  /** `query`: the fixed answer with no sources and an empty context when
      nothing is retrieved; otherwise the generator's answer over the chunks
      joined by blank lines, one source record per chunk in rank order, and the
      preview of the joined context. */
  function Query(useLocalLlm: bool, llm: Llm, question: string, reply: StoreReply): (result: QueryResult)
    requires WellFormed(reply)
    ensures |result.sources| == |reply.documents|
    ensures |result.context| <= PREVIEW_LENGTH + |ELLIPSIS|
  {
    var chunks := RetrieveRelevantChunks(reply);
    if |chunks| == 0 then QueryResult(NO_MATCH_ANSWER, [], "")
    else
      var context := Join(CONTEXT_SEPARATOR, Contents(chunks));
      var answer := GenerateResponse(useLocalLlm, llm, question, context);
      var sources := seq(|chunks|, i requires 0 <= i < |chunks| => SourceOf(chunks[i]));
      QueryResult(answer, sources, Preview(context))
  }

  /** Nothing retrieved: the fixed answer, no sources, an empty context, and the
      generator is never consulted, so any two models give the same result. */
  lemma NoMatchResult(useLocalLlm: bool, llm1: Llm, llm2: Llm, question: string, reply: StoreReply)
    requires WellFormed(reply) && |reply.documents| == 0
    ensures Query(useLocalLlm, llm1, question, reply) == QueryResult(NO_MATCH_ANSWER, [], "")
    ensures Query(useLocalLlm, llm1, question, reply) == Query(useLocalLlm, llm2, question, reply)
  {
  }

  /** Something retrieved: the answer is generated over the reply's documents
      joined by blank lines in rank order, and source record `i` carries the
      provenance of entry `i` of the reply and one minus its distance. */
  lemma AnsweredResult(useLocalLlm: bool, llm: Llm, question: string, reply: StoreReply)
    requires WellFormed(reply) && |reply.documents| > 0
    ensures var result := Query(useLocalLlm, llm, question, reply);
            var context := Join(CONTEXT_SEPARATOR, reply.documents);
            && result.answer == GenerateResponse(useLocalLlm, llm, question, context)
            && result.context == Preview(context)
            && (forall i :: 0 <= i < |reply.documents| ==>
                  && result.sources[i].source == reply.metadatas[i].source
                  && result.sources[i].docType == reply.metadatas[i].docType
                  && result.sources[i].page == reply.metadatas[i].page
                  && (reply.distances.Some? ==> result.sources[i].relevanceScore == 1.0 - reply.distances.value[i])
                  && (reply.distances.None? ==> result.sources[i].relevanceScore == 1.0))
  {
    var chunks := RetrieveRelevantChunks(reply);
    assert Contents(chunks) == reply.documents;
  }

  /** The generator sees every retrieved chunk, verbatim and in rank order: the
      text of entry `k` sits in the joined context at its offset, preceded by a
      blank line unless it is the first. */
  lemma ContextHoldsEveryChunk(reply: StoreReply, k: nat)
    requires WellFormed(reply) && k < |reply.documents|
    ensures var context := Join(CONTEXT_SEPARATOR, reply.documents);
            var o := Offset(CONTEXT_SEPARATOR, reply.documents, k);
            && o + |reply.documents[k]| <= |context|
            && context[o..o + |reply.documents[k]|] == reply.documents[k]
            && (k > 0 ==> 2 <= o && context[o - 2..o] == CONTEXT_SEPARATOR)
  {
    JoinPiece(CONTEXT_SEPARATOR, reply.documents, k);
  }
}

=== FILE: retrieval.dfy ===
/** Retrieval (`SmartPlantRAG.retrieve_relevant_chunks`): turning the vector
    store's reply to one query into a list of retrieved chunks.

    The embedder and the nearest-neighbour search are not modelled: the store's
    reply for the first (and only) query embedding is an input. Nothing is
    assumed about its ordering or its length beyond what the mapping indexes. */
module Retrieval {
  import opened Optional
  import opened Index

  /** The first row of each list in the store's reply: `documents[0]`,
      `metadatas[0]` and, when the reply has a `'distances'` key,
      `distances[0]`. */
  datatype StoreReply = StoreReply(documents: seq<string>, metadatas: seq<ChunkMeta>, distances: Option<seq<real>>)

  /** A retrieved chunk: `{'content', 'metadata', 'distance'}`. */
  datatype Retrieved = Retrieved(content: string, metadata: ChunkMeta, distance: Option<real>)

  /** The reply has an entry of each list for every document it returns; the
      Python indexes the lists up to `len(documents[0])` and would raise
      otherwise. */
  predicate WellFormed(reply: StoreReply) {
    && |reply.metadatas| >= |reply.documents|
    && (reply.distances.Some? ==> |reply.distances.value| >= |reply.documents|)
  }

  /** Entry `i` of the reply as a retrieved chunk. */
  function EntryAt(reply: StoreReply, i: nat): Retrieved
    requires WellFormed(reply) && i < |reply.documents|
  {
    Retrieved(reply.documents[i], reply.metadatas[i], if reply.distances.Some? then Some(reply.distances.value[i]) else None)
  }

  /** `retrieve_relevant_chunks`: one retrieved chunk per document of the reply,
      in reply order. */
  function RetrieveRelevantChunks(reply: StoreReply): (r: seq<Retrieved>)
    requires WellFormed(reply)
    ensures |r| == |reply.documents|
    ensures forall i :: 0 <= i < |r| ==> r[i] == EntryAt(reply, i)
  {
    seq(|reply.documents|, i requires 0 <= i < |reply.documents| => EntryAt(reply, i))
  }

  /** The reply a list of retrieved chunks was read from, rebuilt from the
      chunks: documents, metadatas, and distances when the chunks carry them. */
  function ReplyOf(chunks: seq<Retrieved>, withDistances: bool): (reply: StoreReply)
    requires withDistances ==> forall i :: 0 <= i < |chunks| ==> chunks[i].distance.Some?
  {
    StoreReply(
      seq(|chunks|, i requires 0 <= i < |chunks| => chunks[i].content),
      seq(|chunks|, i requires 0 <= i < |chunks| => chunks[i].metadata),
      if withDistances then Some(seq(|chunks|, i requires 0 <= i < |chunks| => chunks[i].distance.value)) else None)
  }

  /** Retrieval loses nothing: the retrieved chunks give back the reply they came
      from, cut to the length of its document list, and they carry distances
      exactly when the reply has them. */
  lemma RetrieveRoundTrip(reply: StoreReply)
    requires WellFormed(reply)
    ensures var r := RetrieveRelevantChunks(reply);
            && (forall i :: 0 <= i < |r| ==> (r[i].distance.Some? <==> reply.distances.Some?))
            && var n := |reply.documents|;
               ReplyOf(r, reply.distances.Some?)
               == StoreReply(reply.documents, reply.metadatas[..n],
                             if reply.distances.Some? then Some(reply.distances.value[..n]) else None)
  {
    var r := RetrieveRelevantChunks(reply);
    var back := ReplyOf(r, reply.distances.Some?);
    var n := |reply.documents|;
    assert back.documents == reply.documents;
    assert back.metadatas == reply.metadatas[..n];
    if reply.distances.Some? {
      assert back.distances.value == reply.distances.value[..n];
    }
  }
}

=== FILE: strings.dfy ===
/** Python string operations the pipeline relies on, over `string` (`seq<char>`):
    the whitespace class of `str.isspace`, `str.strip`, the word count of
    `len(s.split())`, `str(n)` for naturals, ASCII lower-casing and `sep.join(xs)`. */
module Strings {

  /** Python's `str.isspace` for one character: the code points with bidirectional
      class WS, B or S, or general category Zs. */
  predicate IsSpace(c: char) {
    || ('\U{09}' <= c <= '\U{0D}')
    || ('\U{1C}' <= c <= '\U{20}')
    || c == '\U{85}' || c == '\U{A0}' || c == '\U{1680}'
    || ('\U{2000}' <= c <= '\U{200A}')
    || c == '\U{2028}' || c == '\U{2029}' || c == '\U{202F}' || c == '\U{205F}' || c == '\U{3000}'
  }

  /** Every character is whitespace; `not s.strip()` in Python. */
  predicate Blank(s: string) {
    forall k :: 0 <= k < |s| ==> IsSpace(s[k])
  }

  /** No character is whitespace. */
  predicate Solid(s: string) {
    forall k :: 0 <= k < |s| ==> !IsSpace(s[k])
  }

  /** Python's `s[lo:hi]` for non-negative bounds: both bounds are clamped to the
      length, and an empty slice results when `hi <= lo`. */
  function Slice(s: string, lo: nat, hi: nat): (r: string)
    ensures |r| <= |s| && (lo <= hi ==> |r| <= hi - lo)
    ensures lo <= hi <= |s| ==> r == s[lo..hi]
    ensures lo <= |s| <= hi ==> r == s[lo..]
    ensures hi <= lo ==> r == []
    ensures |s| <= lo ==> r == []
  {
    var a := if lo < |s| then lo else |s|;
    var b := if hi < |s| then hi else |s|;
    if a <= b then s[a..b] else []
  }

  // ---------------------------------------------------------------------------
  // str.strip()
  // ---------------------------------------------------------------------------

  /** Number of whitespace characters before the first non-whitespace one. */
  function LeadingSpace(s: string): (n: nat)
    ensures n <= |s|
    ensures forall k :: 0 <= k < n ==> IsSpace(s[k])
    ensures n < |s| ==> !IsSpace(s[n])
  {
    if |s| > 0 && IsSpace(s[0]) then 1 + LeadingSpace(s[1..]) else 0
  }

  /** Number of whitespace characters after the last non-whitespace one. */
  function TrailingSpace(s: string): (n: nat)
    ensures n <= |s|
    ensures forall k :: |s| - n <= k < |s| ==> IsSpace(s[k])
    ensures n < |s| ==> !IsSpace(s[|s| - n - 1])
  {
    if |s| > 0 && IsSpace(s[|s| - 1]) then 1 + TrailingSpace(s[..|s| - 1]) else 0
  }

  /** `s.strip()`: drop whitespace from the front, then from the back. What the
      result is, is stated by `StripSpec` below. */
  function Strip(s: string): (r: string)
    ensures |r| <= |s|
    decreases |s|, 1
  {
    if |s| == 0 then s else StripNonEmpty(s)
  }

  /** One step of `Strip` on a non-empty text. `Strip` and this function are
      split so that the verifier unfolds the recursion one level at a time. */
  function StripNonEmpty(s: string): (r: string)
    requires |s| > 0
    ensures |r| <= |s|
    decreases |s|, 0
  {
    if IsSpace(s[0]) then Strip(s[1..])
    else if IsSpace(s[|s| - 1]) then Strip(s[..|s| - 1])
    else s
  }

  /** `r` is `s` stripped, with `r` found at offset `i`: only whitespace precedes
      and follows it in `s`, and it neither starts nor ends with whitespace. */
  predicate StrippedAt(s: string, r: string, i: nat) {
    && i + |r| <= |s|
    && s[i..i + |r|] == r
    && (forall k :: 0 <= k < i ==> IsSpace(s[k]))
    && (forall k :: i + |r| <= k < |s| ==> IsSpace(s[k]))
    && (|r| > 0 ==> !IsSpace(r[0]) && !IsSpace(r[|r| - 1]))
  }

  /** `Strip` meets its characterisation, at offset `LeadingSpace(s)`. */
  lemma {:induction false} StripSpec(s: string)
    ensures StrippedAt(s, Strip(s), LeadingSpace(s))
    decreases |s|, 1
  {
    if |s| > 0 {
      if IsSpace(s[0]) {
        StripSpecDropFirst(s);
      } else if IsSpace(s[|s| - 1]) {
        StripSpecDropLast(s);
      } else {
        assert s[0..|s|] == s;
      }
    }
  }

  lemma {:induction false} StripSpecDropFirst(s: string)
    requires |s| > 0 && IsSpace(s[0])
    ensures StrippedAt(s, Strip(s), LeadingSpace(s))
    decreases |s|, 0
  {
    var t := s[1..];
    StripSpec(t);
    var a := LeadingSpace(t);
    var r := Strip(t);
    assert t[a..a + |r|] == s[a + 1..a + 1 + |r|];
    forall k | 0 <= k < |t| ensures s[k + 1] == t[k] { }
  }

  lemma {:induction false} StripSpecDropLast(s: string)
    requires |s| > 0 && !IsSpace(s[0]) && IsSpace(s[|s| - 1])
    ensures StrippedAt(s, Strip(s), LeadingSpace(s))
    decreases |s|, 0
  {
    var t := s[..|s| - 1];
    StripSpec(t);
    assert t[0] == s[0];
    var r := Strip(t);
    assert t[..|r|] == s[..|r|];
    forall k | 0 <= k < |t| ensures s[k] == t[k] { }
  }

  /** The characterisation determines the result: a stripped form is unique. */
  lemma StrippedAtUnique(s: string, r1: string, i1: nat, r2: string, i2: nat)
    requires StrippedAt(s, r1, i1) && StrippedAt(s, r2, i2)
    ensures r1 == r2
  {
    if |r1| > 0 {
      assert s[i1] == r1[0] && s[i1 + |r1| - 1] == r1[|r1| - 1];
    }
    if |r2| > 0 {
      assert s[i2] == r2[0] && s[i2 + |r2| - 1] == r2[|r2| - 1];
    }
    assert |r1| > 0 <==> |r2| > 0;
    if |r1| > 0 {
      assert i1 == i2;
      assert |r1| == |r2|;
    }
  }

  /** A blank text strips to the empty text, any other to a non-empty one. */
  lemma StripEmptyIffBlank(s: string)
    ensures |Strip(s)| == 0 <==> Blank(s)
  {
    StripSpec(s);
    var i := LeadingSpace(s);
    var r := Strip(s);
    if |r| > 0 {
      assert s[i] == r[0];
    }
  }

  /** Stripping `pre + core + post` with blank `pre` and `post` gives `core` when
      `core` neither starts nor ends with whitespace. */
  lemma StripUnique(pre: string, core: string, post: string)
    requires Blank(pre) && Blank(post)
    requires |core| > 0 ==> !IsSpace(core[0]) && !IsSpace(core[|core| - 1])
    ensures Strip(pre + core + post) == core
  {
    var s := pre + core + post;
    assert s[|pre|..|pre| + |core|] == core;
    forall k | 0 <= k < |pre| ensures s[k] == pre[k] { }
    forall k | |pre| + |core| <= k < |s| ensures s[k] == post[k - |pre| - |core|] { }
    assert StrippedAt(s, core, |pre|);
    StripSpec(s);
    StrippedAtUnique(s, core, |pre|, Strip(s), LeadingSpace(s));
  }

  /** `s.strip().strip() == s.strip()`. */
  lemma StripIdempotent(s: string)
    ensures Strip(Strip(s)) == Strip(s)
  {
    StripSpec(s);
    StripUnique([], Strip(s), []);
    assert [] + Strip(s) + [] == Strip(s);
  }

  /** Text without whitespace is its own strip. */
  lemma StripSolid(s: string)
    requires Solid(s)
    ensures Strip(s) == s
  {
    StripUnique([], s, []);
    assert [] + s + [] == s;
  }

  /** Every non-whitespace character of `s` lies inside `s.strip()`. */
  lemma NonSpaceInsideStrip(s: string, k: nat)
    requires k < |s| && !IsSpace(s[k])
    ensures LeadingSpace(s) <= k < LeadingSpace(s) + |Strip(s)|
  {
    StripSpec(s);
  }

  /** Stripping any slice of `s` yields no more than stripping `s` itself: the
      non-whitespace characters of the slice lie between those of `s`. */
  lemma StripSliceNoLonger(s: string, i: nat, j: nat)
    requires i <= j <= |s|
    ensures |Strip(s[i..j])| <= |Strip(s)|
  {
    var w := s[i..j];
    var r := Strip(w);
    StripSpec(w);
    if |r| > 0 {
      var a := LeadingSpace(w);
      assert w[a] == r[0] && w[a + |r| - 1] == r[|r| - 1];
      assert s[i + a] == w[a] && s[i + a + |r| - 1] == w[a + |r| - 1];
      NonSpaceInsideStrip(s, i + a);
      NonSpaceInsideStrip(s, i + a + |r| - 1);
    }
  }

  // ---------------------------------------------------------------------------
  // len(s.split())
  // ---------------------------------------------------------------------------

  /** Position `k` starts a word: a non-whitespace character at the start of the
      text or right after whitespace. */
  predicate StartsWord(s: string, k: nat)
    requires k < |s|
  {
    !IsSpace(s[k]) && (k == 0 || IsSpace(s[k - 1]))
  }

  /** `len(s.split())`: the number of maximal runs of non-whitespace characters,
      counted by their starting positions; there are no more words than
      characters. */
  function WordCount(s: string): (n: nat)
    ensures n <= |s|
  {
    if |s| == 0 then 0
    else WordCount(s[..|s| - 1]) + (if StartsWord(s, |s| - 1) then 1 else 0)
  }

  /** A text holds no word exactly when it is blank. */
  lemma {:induction false} WordCountZeroIffBlank(s: string)
    ensures WordCount(s) == 0 <==> Blank(s)
  {
    if |s| > 0 {
      var init := s[..|s| - 1];
      WordCountZeroIffBlank(init);
      assert forall k :: 0 <= k < |init| ==> init[k] == s[k];
    }
  }

  /** Word counts add up across a whitespace boundary: no word straddles the seam. */
  lemma {:induction false} WordCountAppend(a: string, b: string)
    requires |a| == 0 || |b| == 0 || IsSpace(a[|a| - 1]) || IsSpace(b[0])
    ensures WordCount(a + b) == WordCount(a) + WordCount(b)
  {
    if |b| == 0 {
      assert a + b == a;
    } else {
      var b' := b[..|b| - 1];
      var s := a + b;
      assert s[..|s| - 1] == a + b';
      if |b'| > 0 {
        WordCountAppend(a, b');
      } else {
        assert a + b' == a;
      }
      StartsWordLast(a, b);
    }
  }

  /** Whether the last character of `a + b` starts a word depends on `b` alone
      when the seam is whitespace. */
  lemma StartsWordLast(a: string, b: string)
    requires |b| > 0
    requires |a| == 0 || IsSpace(a[|a| - 1]) || IsSpace(b[0])
    ensures StartsWord(a + b, |a + b| - 1) == StartsWord(b, |b| - 1)
  {
    var s := a + b;
    assert s[|s| - 1] == b[|b| - 1];
    if |b| > 1 {
      assert s[|s| - 2] == b[|b| - 2];
    }
  }

  /** A non-empty run of non-whitespace characters is exactly one word. */
  lemma {:induction false} WordCountSolid(s: string)
    requires |s| > 0 && Solid(s)
    ensures WordCount(s) == 1
  {
    if |s| == 1 {
      assert s[..0] == [];
    } else {
      WordCountSolid(s[..|s| - 1]);
    }
  }

  // ---------------------------------------------------------------------------
  // str(n) for naturals, and its inverse
  // ---------------------------------------------------------------------------

  function DigitChar(d: nat): (c: char)
    requires d < 10
    ensures '0' <= c <= '9'
  {
    ('0' as int + d) as char
  }

  function DigitValue(c: char): int {
    c as int - '0' as int
  }

  /** `str(n)`: the decimal digits of `n`, most significant first, no leading zero. */
  function NatToString(n: nat): (s: string)
    ensures 1 <= |s|
    ensures forall k :: 0 <= k < |s| ==> '0' <= s[k] <= '9'
    ensures |s| > 1 ==> s[0] != '0'
  {
    if n < 10 then [DigitChar(n)]
    else NatToString(n / 10) + [DigitChar(n % 10)]
  }

  /** `int(s)` for a string of decimal digits. */
  function ParseNat(s: string): int
  {
    if |s| == 0 then 0
    else ParseNat(s[..|s| - 1]) * 10 + DigitValue(s[|s| - 1])
  }

  /** Parsing the decimal rendering gives the number back. */
  lemma {:induction false} ParseNatToString(n: nat)
    ensures ParseNat(NatToString(n)) == n
  {
    var s := NatToString(n);
    if n < 10 {
      assert s[..0] == [];
    } else {
      ParseNatToString(n / 10);
      assert s[..|s| - 1] == NatToString(n / 10);
    }
  }

  // ---------------------------------------------------------------------------
  // str.lower() on the characters file suffixes are compared against
  // ---------------------------------------------------------------------------

  /** ASCII lower-casing: upper-case Latin letters map to lower case, everything
      else is kept, so no upper-case Latin letter is left. */
  function LowerAscii(s: string): (r: string)
    ensures |r| == |s|
    ensures forall k :: 0 <= k < |r| ==> !('A' <= r[k] <= 'Z')
    ensures forall k :: 0 <= k < |s| ==> r[k] == (if 'A' <= s[k] <= 'Z' then (s[k] as int + 32) as char else s[k])
  {
    seq(|s|, k requires 0 <= k < |s| => if 'A' <= s[k] <= 'Z' then (s[k] as int + 32) as char else s[k])
  }

  // ---------------------------------------------------------------------------
  // sep.join(xs)
  // ---------------------------------------------------------------------------

  /** `sep.join(xs)`: every piece, with one separator between each pair. */
  function Join(sep: string, xs: seq<string>): (r: string)
    ensures |xs| > 0 ==> |r| + |sep| == Offset(sep, xs, |xs|)
    decreases |xs|, 1
  {
    if |xs| == 0 then "" else JoinNonEmpty(sep, xs)
  }

  /** One step of `Join` on a non-empty list. `Join` and this function are
      split so that the verifier unfolds the recursion one level at a time. */
  function JoinNonEmpty(sep: string, xs: seq<string>): (r: string)
    requires |xs| > 0
    ensures |r| + |sep| == Offset(sep, xs, |xs|)
    decreases |xs|, 0
  {
    if |xs| == 1 then xs[0]
    else
      OffsetPrefix(sep, xs[..|xs| - 1], xs, |xs| - 1);
      Join(sep, xs[..|xs| - 1]) + sep + xs[|xs| - 1]
  }

  /** Where the `k`-th piece starts in `sep.join(xs)`: after every earlier piece
      and its separator. */
  function Offset(sep: string, xs: seq<string>, k: nat): nat
    requires k <= |xs|
    decreases k, 1
  {
    if k == 0 then 0 else OffsetPositive(sep, xs, k)
  }

  /** One step of `Offset`: the start of the previous piece, plus that piece
      and a separator. `Offset` and this function are split so that the
      verifier unfolds the recursion one level at a time. */
  function OffsetPositive(sep: string, xs: seq<string>, k: nat): nat
    requires 0 < k <= |xs|
    decreases k, 0
  {
    Offset(sep, xs, k - 1) + |xs[k - 1]| + |sep|
  }

  lemma {:induction false} OffsetPrefix(sep: string, xs: seq<string>, ys: seq<string>, k: nat)
    requires k <= |xs| <= |ys| && xs == ys[..|xs|]
    ensures Offset(sep, xs, k) == Offset(sep, ys, k)
  {
    if k > 0 {
      OffsetPrefix(sep, xs, ys, k - 1);
      assert xs[k - 1] == ys[k - 1];
    }
  }

  /** `piece` appears verbatim at offset `o` of `text`, and unless it is the
      first piece, `sep` sits right before it. */
  predicate PieceAt(text: string, sep: string, piece: string, o: nat, first: bool) {
    && o + |piece| <= |text|
    && text[o..o + |piece|] == piece
    && (!first ==> |sep| <= o && text[o - |sep|..o] == sep)
  }

  /** Piece `k` appears verbatim at `Offset(sep, xs, k)` in `sep.join(xs)`, and
      unless it is the first, the separator sits right before it. */
  lemma {:induction false} JoinPiece(sep: string, xs: seq<string>, k: nat)
    requires k < |xs|
    ensures PieceAt(Join(sep, xs), sep, xs[k], Offset(sep, xs, k), k == 0)
    decreases |xs|, 1
  {
    var n := |xs|;
    if n > 1 {
      JoinSplit(sep, xs);
      if k < n - 1 {
        JoinPieceEarlier(sep, xs, k);
      } else {
        LastPiece(Join(sep, xs[..n - 1]), sep, xs[n - 1]);
      }
    }
  }

  /** A piece before the last sits where it sits in the join of all but the
      last piece. */
  lemma {:induction false} JoinPieceEarlier(sep: string, xs: seq<string>, k: nat)
    requires k < |xs| - 1
    ensures PieceAt(Join(sep, xs), sep, xs[k], Offset(sep, xs, k), k == 0)
    decreases |xs|, 0
  {
    var n := |xs|;
    var init := xs[..n - 1];
    JoinSplit(sep, xs);
    JoinPiece(sep, init, k);
    OffsetPrefix(sep, init, xs, k);
    assert init[k] == xs[k];
    PieceInPrefix(Join(sep, init), sep + xs[n - 1], sep, xs[k], Offset(sep, xs, k), k == 0);
  }

  /** A piece found in `p` is found at the same offset in `p + rest`. */
  lemma PieceInPrefix(p: string, rest: string, sep: string, piece: string, o: nat, first: bool)
    requires PieceAt(p, sep, piece, o, first)
    ensures PieceAt(p + rest, sep, piece, o, first)
  {
    SliceInPrefix(p, rest, o, o + |piece|);
    if !first {
      SliceInPrefix(p, rest, o - |sep|, o);
    }
  }

  /** `sep.join(xs)` of two or more pieces is the join of all but the last,
      the separator and the last piece. */
  lemma JoinSplit(sep: string, xs: seq<string>)
    requires |xs| > 1
    ensures Join(sep, xs) == Join(sep, xs[..|xs| - 1]) + (sep + xs[|xs| - 1])
    ensures |Join(sep, xs[..|xs| - 1])| + |sep| == Offset(sep, xs, |xs| - 1)
  {
    var init := xs[..|xs| - 1];
    OffsetPrefix(sep, init, xs, |xs| - 1);
    assert Join(sep, init) + sep + xs[|xs| - 1] == Join(sep, init) + (sep + xs[|xs| - 1]);
  }

  lemma SliceInPrefix(p: string, rest: string, lo: nat, hi: nat)
    requires lo <= hi <= |p|
    ensures (p + rest)[lo..hi] == p[lo..hi]
  {
  }

  lemma LastPiece(p: string, sep: string, last: string)
    ensures PieceAt(p + (sep + last), sep, last, |p| + |sep|, false)
  {
    var t := p + (sep + last);
    assert t[|p| + |sep|..|p| + |sep| + |last|] == last;
    assert t[|p|..|p| + |sep|] == sep;
  }
}
